=== FILE: README.md ===
# A Dafny model of the v8go C bridge and the Go value decoder

This project models the decision logic of the v8go bridge between Go and the V8
JavaScript engine. It covers three parts.

- **The C bridge (`v8_c_bridge.cpp`, `v8_c_bridge.h`).** This covers:
  - the 47-test kind classifier that builds a 64-bit kind mask;
  - the uncaught-exception diagnostic (`report_exception`, `str`);
  - the value operations Create, Get, GetIdx, Set, SetIdx, Call, New, PromiseInfo and Bytes;
  - the null guards of the two release functions;
  - the result shaping of `v8_Context_Run`;
  - the callback entry point `go_callback`.
- **The engine** is an abstract heap: persistent handles map to values, and object ids map to objects. Work the bridge leaves to V8 is supplied by the caller of each operation, as an oracle parameter:
  - running a script;
  - calling or constructing a function;
  - whether `Object::Set` succeeded;
  - whether `Date::New` succeeded;
  - UTF-8 decoding;
  - the Go dispatcher.
- **The Go decoder (`v8_read.go`).** `readInto` reads a script value into a Go variable, following the variable's type. It has:
  - a depth bound;
  - zero values for `undefined` and `null`;
  - integer conversions with wrap-around;
  - the map, slice and struct cases, with JSON-tag field names;
  - path-prefixed error messages.

Modules:

- `Wrappers`: the option type.
- `Kinds`: the kind enum, the mask and the classifier.
- `Text`: decimal rendering, `strings.Join`, and NUL truncation of C strings.
- `Diagnostics`: `report_exception`.
- `Abi`: the plain-data types of the C interface.
- `Heap`: the engine state.
- `Bridge`: the value operations.
- `Callback`: `go_callback`.
- `ReadInto`: the Go decoder.

Points where the model makes a choice:

- **Failure tuples.** Every failed value operation returns a null handle, a mask of 0 and a freshly copied message. A successful one returns no message and, with one exception, a new handle with the mask of the value it holds. The exception is a pending promise: `PromiseInfo` then returns no handle, mask 0 and no message. `Bridge.Shaped` states this, and every reply satisfies it.
- **Property keys.** A field name that is a canonical array index (decimal digits, no leading zero, value below 2^32 − 1) names the same property as that index, as section 6.1.7 of ECMA-262 defines. So `Set(o, "7")` and `GetIdx(o, 7)` meet.
- **Indexes.** An `int` index is compared with the buffer's `size_t` length, so a negative index is "beyond" the buffer. Outside array buffers the index is converted with `uint32_t(idx)`, which is modulo 2^32.
- **The diagnostic.** The source line and the caret line are indented by two spaces. `str` keeps the text before the first NUL character, because it builds a `std::string` from a C string.
- **The decoder's slice path element.** It is `string(i)`, the one-character string whose code point is `i` (U+FFFD when `i` is not a valid code point). It is not the decimal index.
- **Go panics** in the decoder become a `Panic` status. The source panics in these cases:
  - a negative bound at the entry (`make` with a negative capacity);
  - a negative array length (`MakeSlice`);
  - an unexported struct field (`Interface` on a read-only value);
  - a scalar or a map key whose type is a defined type rather than the predeclared one (`Set` and `SetMapIndex` refuse a value of another named type).

## Model

| member | source | states |
|---|---|---|
| Kinds.TestOrderComplete | v8_c_bridge.cpp:64-117 | The classifier's 47 tests cover every kind of the enum, one test per kind, in the source's order (object and array after symbol, function after regexp). |
| Kinds.MaskOfBit | v8_c_bridge.cpp:64-117 | Starting from 0 and OR-ing without short-circuit, bit k is set exactly when k is among the tests run and its test holds, whatever other tests hold. |
| Kinds.MaskOfStep | v8_c_bridge.cpp:64-117 | One more `kinds |= (test ? 1 << k : 0)` step sets bit k exactly when the new test is for k and holds, or the bit was already set. |
| Kinds.MaskOfBelow | v8_c_bridge.h:115-121 | A mask built from kinds has no bit at or above kNumKinds (47) set. |
| Kinds.KindsFromLocalBit | v8_c_bridge.cpp:64-117 | Bit k of the classifier's mask is set if and only if category test k holds for the value; the mask stays below 1 << kNumKinds. |
| Kinds.KindsFromLocal | v8_c_bridge.cpp:64-117 | The classifier's mask never has a bit at or above kNumKinds set. |
| Kinds.MaskInjective | v8_c_bridge.h:67-121 | Because bit position equals ordinal, two sets of kinds give the same mask exactly when they are equal, so the Go side recovers the tests that held. |
| Text.NatToStringRoundTrip | v8_c_bridge.cpp:137-142 | The decimal text streamed for a line number or column reads back as the number. |
| Text.IntToStringRoundTrip | v8_c_bridge.cpp:137-142 | A possibly negative `int` streamed in decimal (with a leading '-') reads back as itself. |
| Text.JoinLength | v8_read.go:222 | `strings.Join` gives the total length of the parts plus one separator between each pair. |
| Text.StrPrefix | v8_c_bridge.cpp:119-125 | `str` yields the converted text up to, and not including, its first NUL; an empty conversion gives the empty string. |
| Diagnostics.CaretLineShape | v8_c_bridge.cpp:150-160 | The caret line is "\n  ", then `start` spaces, then max(0, end − start) carets. |
| Diagnostics.ReportExceptionStream | v8_c_bridge.cpp:127-172 | The diagnostic built piece by piece, with the two column loops as loops, equals the declarative `ReportException`. |
| Diagnostics.ReportException | v8_c_bridge.cpp:127-172 | Every diagnostic starts with "Uncaught exception: " followed by the converted exception text, whatever else is known. |
| Diagnostics.ReportWithoutLocation | v8_c_bridge.cpp:134-136 | Without a message, or when the resource name is undefined, there is no location block; only the stack trace, if any, follows the exception. |
| Diagnostics.ReportLocation | v8_c_bridge.cpp:135-149 | The location block is "\nat " plus the resource name, then ":line" and ":start" each exactly when known. |
| Diagnostics.SuffixRoundTrip | v8_c_bridge.cpp:143-148 | A ":n" suffix is empty exactly when the number is unknown; otherwise it reads back as the number. |
| Diagnostics.ReportUnderline | v8_c_bridge.cpp:150-161 | With a source line and both columns known, the diagnostic ends with "\n  " + the line, then the caret line, then the stack-trace part. |
| Diagnostics.ReportEndsWithTrace | v8_c_bridge.cpp:165-167 | A stack trace is appended as "\nStack trace: " + its text, whether or not there is a location block. |
| Abi.DupContents | v8_c_bridge.h:44-51 | A copied string is a non-null (ptr, len) pair that reads back as the same text. |
| Heap.KindsOf | v8_c_bridge.cpp:64-117 | The object test holds for exactly the object values. |
| Heap.DataViewKinds | v8_c_bridge.cpp:99-110 | A `DataView` has the array-buffer-view and data-view kinds and not the typed-array kind. |
| Heap.NewHandleFresh | v8_c_bridge.cpp:511 | A new persistent handle is fresh, holds the value, and changes no other handle or any object. |
| Heap.NewObjectFresh | v8_c_bridge.cpp:416-437 | Allocating an object keeps the engine consistent and changes no existing object. |
| Heap.Store | v8_c_bridge.cpp:535-536 | A property write makes the key read back as the value and leaves every other key as it was. |
| Heap.KeyOfName | v8_c_bridge.cpp:536 | A field name is the array-index key of its value exactly when it is a canonical decimal below 2^32 − 1 (no leading zero); any other name is a named key. |
| Heap.KeyOfIndex | v8_c_bridge.cpp:509 | A `uint32_t` index below 2^32 − 1 is that array index; 2^32 − 1 itself is the named key of its decimal text. |
| Heap.NameAndIndexAgree | v8_c_bridge.cpp:505-509 | The decimal name of an index and the index are the same property key, as section 6.1.7 of ECMA-262 defines array indices. |
| Bridge.Success | v8_c_bridge.h:123-127 | A successful tuple has a fresh handle holding the value, its kind mask, and a null error, and no object changes. |
| Bridge.Create | v8_c_bridge.cpp:412-446 | A null reply changes nothing. A handle reply is the next fresh handle; no other handle changes, and no object other than the one allocated at the next object id. |
| Bridge.ToUint32 | v8_c_bridge.cpp:509 | `uint32_t(idx)` is the index itself when non-negative and idx + 2^32 when negative. |
| Bridge.ToByte | v8_c_bridge.cpp:568 | A number in [0, 256) is stored as its integer part. |
| Bridge.CreateNull | v8_c_bridge.cpp:412-446 | Create returns a null handle exactly for a date the engine refused or a tag outside the enumeration, and then changes nothing; otherwise it returns a fresh handle. |
| Bridge.CreateValues | v8_c_bridge.cpp:412-446 | Each tag builds the value it names. A boolean is true iff `Bool == 1`. An array has length `Mem.len`, or 0 when negative. A buffer holds exactly the bytes of `Mem`. An object is empty. An undefined tag gives `undefined`. |
| Bridge.Get | v8_c_bridge.cpp:448-484 | Every Get reply has the tuple shape: a null handle, mask 0 and a message on failure; a live handle with its mask on success. |
| Bridge.GetOutcome | v8_c_bridge.cpp:451-483 | A non-object fails with "Not an object" and changes nothing; on an object the reply is a fresh handle to the property's value, or to `undefined` when the field name cannot become a string or the read threw. |
| Bridge.GetIdxNotAnObject | v8_c_bridge.cpp:489-493 | Indexing a non-object returns a null handle, mask 0 and "Not an object", and changes nothing. |
| Bridge.GetIdxBuffer | v8_c_bridge.cpp:496-504 | On an array buffer, an index inside it gives a number equal to that byte (0..255); any other index gives `undefined` with no error. |
| Bridge.GetIdxObject | v8_c_bridge.cpp:505-511 | On any other object, the reply is a fresh handle with no error, holding the property at `uint32_t(idx)` (so index −1 reads the property named "4294967295"), or `undefined` when the object has no such property. |
| Bridge.GetIdx | v8_c_bridge.cpp:486-511 | Every reply has the tuple shape: a null handle, mask 0 and a message on failure, a live handle with its mask on success. |
| Bridge.Set | v8_c_bridge.cpp:514-545 | Set succeeds (null error) if and only if the receiver is an object, the field name can become a string, and the engine's set reports `true`; a failure changes nothing. |
| Bridge.SetOnlyThatProperty | v8_c_bridge.cpp:535-544 | A successful Set changes only that property of that object; every handle and every other object stays as it was. |
| Bridge.SetThenGet | v8_c_bridge.cpp:448-545 | In the engine model, whose properties are all ordinary writable data properties, reading back a property just set gives the value that was set. |
| Bridge.SetErrors | v8_c_bridge.cpp:518-543 | The errors come in order: "Not an object", then the field-name message, then "…set returned nothing.", then "…set failed.". |
| Bridge.SetIdxBuffer | v8_c_bridge.cpp:559-570 | An array-buffer write checks non-number, then index beyond the buffer (negative indexes included). On success it returns a null error and changes only byte `idx`, and only in that buffer. |
| Bridge.SetIdxNotAnObject | v8_c_bridge.cpp:552-556 | Writing an element of a non-object fails with "Not an object" and changes nothing. |
| Bridge.SetIdxObject | v8_c_bridge.cpp:571-584 | On any other object: no answer gives "…set returned nothing.", `false` gives "…set failed.", both changing nothing; `true` gives a null error and changes only the element at `uint32_t(idx)` of that object. |
| Bridge.SetIdx | v8_c_bridge.cpp:547-588 | The error is always a well-formed (ptr, len) pair, and a write that reports an error changes nothing. |
| Bridge.SetNameThenGetIdx | v8_c_bridge.cpp:486-545 | A property set under the decimal name of an index is what GetIdx reads at that index. |
| Bridge.SetIdxThenGetIdx | v8_c_bridge.cpp:486-570 | Storing a number into a buffer and reading that index back gives the stored byte; a byte value round-trips exactly. |
| Bridge.ResolveArgs | v8_c_bridge.cpp:612-615 | The argument array has one entry per handle; entry i is the value of handle i. |
| Bridge.Call | v8_c_bridge.cpp:589-631 | A callee that is not a function fails with "Not a function", changing nothing; every reply has the tuple shape. |
| Bridge.CallPassesArguments | v8_c_bridge.cpp:604-617 | The callee receives the global object as receiver when the receiver pointer is null, and the argument values in argv order. |
| Bridge.CallOutcome | v8_c_bridge.cpp:617-630 | A throwing call replies with the exception's diagnostic and a null handle. A returning call replies with a fresh handle to the result and no error. |
| Bridge.New | v8_c_bridge.cpp:633-666 | A non-function fails with "Not a function" and changes nothing; every reply has the tuple shape, and the objects afterwards are those the constructor left. |
| Bridge.NewPassesArguments | v8_c_bridge.cpp:647-652 | The constructor receives the argument values in argv order, and the reply is built from its completion. |
| Bridge.NewOutcome | v8_c_bridge.cpp:654-664 | A throwing constructor replies with the exception's diagnostic and a null handle. A returning one replies with a fresh handle to the constructor's result and no error. |
| Bridge.PromiseInfoStates | v8_c_bridge.cpp:766-781 | A non-promise gives "Not a promise" and leaves the state unwritten. For a promise the state is written. A pending promise gives a null handle, mask 0 and a null error, and changes nothing. A settled one gives a fresh handle to its result with a null error. |
| Bridge.PromiseInfo | v8_c_bridge.cpp:766-781 | Every reply has the tuple shape. |
| Bridge.Bytes | v8_c_bridge.cpp:711-736 | The byte array is always a well-formed (ptr, len) pair; a non-object gives the null array, and an array buffer gives exactly its contents. |
| Bridge.BytesOfTypedArray | v8_c_bridge.cpp:718-735 | A typed array gives the whole contents of its backing buffer. |
| Bridge.CreateThenBytes | v8_c_bridge.cpp:417-422 | A buffer created from bytes hands back exactly those bytes. |
| Bridge.BytesOfOthers | v8_c_bridge.cpp:714-730 | Anything that is neither an array buffer nor a typed array has the null byte array. |
| Bridge.ValueRelease | v8_c_bridge.cpp:668-678 | A null context or a null value changes nothing; otherwise exactly that handle is disposed of, with every other handle and every object kept. |
| Bridge.ContextRelease | v8_c_bridge.cpp:403-410 | A null context is ignored; otherwise the context is released and the handles and objects stay as they were. |
| Bridge.RunOutcome | v8_c_bridge.cpp:262-307 | The file name defaults to "(no file)". A name that cannot become a string gives "Error initing filename." and changes nothing. A compile failure gives the exception's diagnostic and changes nothing. A throwing script gives the diagnostic, with the objects it left. Otherwise the reply is a fresh handle to the result, with no error. |
| Bridge.Run | v8_c_bridge.cpp:262-307 | Every reply has the tuple shape. |
| Bridge.CreateKeepsValid | v8_c_bridge.cpp:412-446 | Create keeps every handle and every object reference pointing at an existing object. |
| Bridge.GetKeepsValid | v8_c_bridge.cpp:448-484 | Get keeps the engine consistent. |
| Bridge.GetIdxKeepsValid | v8_c_bridge.cpp:486-511 | GetIdx keeps the engine consistent. |
| Bridge.SetKeepsValid | v8_c_bridge.cpp:514-545 | Set keeps the engine consistent. |
| Bridge.SetIdxKeepsValid | v8_c_bridge.cpp:547-588 | SetIdx keeps the engine consistent. |
| Bridge.PromiseInfoKeepsValid | v8_c_bridge.cpp:766-781 | PromiseInfo keeps the engine consistent. |
| Bridge.ValueReleaseKeepsValid | v8_c_bridge.cpp:668-678 | Releasing a handle keeps the engine consistent. |
| Bridge.CallKeepsValid | v8_c_bridge.cpp:589-631 | Call keeps the engine consistent whenever the function's completion leaves a consistent heap. |
| Bridge.NewKeepsValid | v8_c_bridge.cpp:633-666 | New keeps the engine consistent whenever the constructor's completion leaves a consistent heap. |
| Bridge.RunKeepsValid | v8_c_bridge.cpp:262-307 | Run keeps the engine consistent whenever the script's completion leaves a consistent heap. |
| Callback.CallerOf | v8_c_bridge.cpp:355-364 | The trace is captured with a one-frame limit, so the caller info is empty strings and zeroes for an empty call stack, and otherwise the converted names, line and column of the innermost frame. |
| Callback.Captured | v8_c_bridge.cpp:357 | A trace captured with a frame limit of 1 has at most one frame, the innermost one, and has one exactly when the call stack is not empty. |
| Callback.WrapArgs | v8_c_bridge.cpp:366-370 | argv has argc entries. Entry i is a new handle holding argument i, with that value's kind mask and a null error, in order. No earlier handle changes. |
| Callback.Respond | v8_c_bridge.cpp:383-395 | A non-null error is thrown with that message and wins over any value. A null value with no error returns `undefined`. Otherwise the handle's value is returned. |
| Callback.GoCallback | v8_c_bridge.cpp:342-396 | The dispatcher receives the converted id, the caller info and the wrapped arguments, and its reply decides the action. |
| Callback.ArgumentKinds | v8_c_bridge.cpp:368 | The mask sent with each argument has bit k set exactly when test k holds for that argument. |
| ReadInto.Signed | v8_read.go:67-76 | A signed conversion gives the unique in-range value congruent to the input modulo 2^bits. |
| ReadInto.Unsigned | v8_read.go:77-86 | An unsigned conversion gives the unique value in [0, 2^bits) congruent to the input. |
| ReadInto.ConversionKeepsInRange | v8_read.go:67-86 | A value already in the target range is not changed by the conversion. |
| ReadInto.ZeroTyped | v8_read.go:41-44 | `reflect.Zero(t)` is a value of type t. |
| ReadInto.Fail | v8_read.go:218-223 | The error is the bare message exactly when the path is empty. Otherwise it is "error reading value into ", then the path joined with ".", then ": ", then the message. |
| ReadInto.DepthMessageNamesBound | v8_read.go:21-23 | The depth error names the bound in decimal, and it reads back as the bound. |
| ReadInto.JsonName | v8_read.go:188-197 | The key is the field name or a non-empty, comma-free prefix of the json tag. |
| ReadInto.JsonNameOfTag | v8_read.go:188-197 | A tag `name,options`, or just `name`, selects the key `name`; when `name` is empty the Go field name is used. |
| ReadInto.RuneString | v8_read.go:161 | The slice path element is the one-character string of code point i, or U+FFFD for an invalid code point. |
| ReadInto.ReadValue | v8_read.go:19-216 | Decoding leaves the destination holding a value of its type, on success and on every error. |
| ReadInto.DepthCheckedFirst | v8_read.go:21-23 | A path longer than the bound fails with "max depth of N exceeded" before any other test, with no path prefix. |
| ReadInto.NullishGivesZero | v8_read.go:41-44 | `undefined` or `null` stores the zero value and succeeds, for every destination type. |
| ReadInto.UnsupportedKinds | v8_read.go:62-214 | Invalid, uintptr, complex, chan, func, interface, pointer and unsafe-pointer types each fail with their own message (the `Refusal` table), prefixed with the path, and leave the destination unchanged. |
| ReadInto.ArraysSkipped | v8_read.go:97 | A Go array is a successful no-op: the destination keeps its value. |
| ReadInto.ReadMap | v8_read.go:104-129 | A failed map decoding leaves the destination map unchanged. |
| ReadInto.MapNotAnObject | v8_read.go:105-107 | A map is read only from an object; otherwise "value to be read into a map is not an object", with the path, and the destination unchanged. |
| ReadInto.MapKeyNotString | v8_read.go:108-110 | A map whose key kind is not string fails with "only string type keys are supported for maps", with the path, and the destination unchanged. |
| ReadInto.ReadEntriesStatus | v8_read.go:116-127 | The key loop succeeds iff every remaining key decodes and, when there is one, the key type is plain `string`. |
| ReadInto.ReadEntriesContents | v8_read.go:115-127 | When the key loop succeeds, it binds exactly the keys read or listed; each listed key is bound to its property's decoding, and other entries are kept. |
| ReadInto.MapDecodingStatus | v8_read.go:104-129 | A map decodes iff the value is an object, the key kind is string, the key list is available and every entry decodes (with a plain `string` key type when there is a key). |
| ReadInto.MapDecodingContents | v8_read.go:114-129 | A decoded map holds exactly the listed keys, each bound to its property decoded with the key appended to the path. |
| ReadInto.ReadSlice | v8_read.go:145-166 | A failed slice decoding leaves the destination slice unchanged. |
| ReadInto.SliceNotAnArray | v8_read.go:146-148 | A slice is read only from an array or object; otherwise the slice message, with the path, and the destination unchanged. |
| ReadInto.ReadElemsStatus | v8_read.go:159-165 | The element loop succeeds exactly when every remaining index decodes. |
| ReadInto.ReadElemsContents | v8_read.go:158-166 | When the element loop succeeds, the result has `length` elements; element j is index j decoded. |
| ReadInto.SliceDecoding | v8_read.go:145-166 | A slice decodes iff the value is an array or object whose `length` reads as a non-negative number and every element decodes. The result then has exactly `length` elements, element j decoded from index j. |
| ReadInto.ReadFieldsOk | v8_read.go:176-208 | The field loop succeeds iff every remaining field decodes. Then each field holds its own decoding, and the fields before the loop position are untouched. |
| ReadInto.StructDecoding | v8_read.go:171-208 | A struct decodes iff the value is an object and every field decodes; each field then holds what decoding it alone gives. |
| ReadInto.StructNotAnObject | v8_read.go:172-174 | A struct read from a non-object fails with the map's message ("…into a map is not an object"), with the path, and the destination unchanged. |
| ReadInto.ReadStruct | v8_read.go:171-208 | Whatever happens, the destination stays a value of the struct type. |
| ReadInto.FieldSources | v8_read.go:179-204 | An embedded field is read from the same value at the same path. Any other field is read from the property its JSON name selects, with its Go name appended to the path. |
| ReadInto.Read | v8_read.go:14-17 | A negative bound panics and changes nothing. A non-pointer fails and changes nothing. Decoding keeps the destination well typed. |
| ReadInto.ReadAtTopLevel | v8_read.go:14-44 | With a pointer and a non-negative bound, `ReadInto` decodes from the empty path; `undefined` or `null` then yields the zero value. |

## Left out

- Engine lifecycle and platform setup (`v8_Init`, isolates, snapshots, heap statistics, terminate): one-shot foreign calls with no decision logic.
- `v8_Context_RegisterCallback` and `v8_Context_Global`: only create handles.
- The locking and scope macros: thread affinity and concurrency are outside a sequential model.
- Compiling and running scripts, and calling and constructing functions: these are oracle parameters, and the model keeps only the bridge's branching on their outcomes.
- Heap.Lookup: objects have only own, writable data properties. Prototypes, accessors, non-writable properties and proxies are not modelled. Property keys are canonical: an array-index name and its index are one key.
- Bridge.GetIdx: an element of a typed array is read as an ordinary property, not through the typed array's buffer. `Bridge.SetIdx` writes it the same way.
- Bridge.SetIdx: writing an element of an array does not update its `length`.
- Bridge.Bytes: returns a copy of the buffer's bytes, whereas the source returns a pointer into the engine's backing store, so writes through that pointer change the buffer.
- Bridge.CallKeepsValid, Bridge.NewKeepsValid and Bridge.RunKeepsValid: they hold only when the engine's completion leaves a consistent heap (`CompletionFits`), because the completion comes from the oracle.
- A script's side effects: only its effect on objects is modelled, through the completion's object map. The Go dispatcher's own effects are not modelled.
- Floating point: numbers are reals, with no NaN, infinities or rounding.
  - `float32` narrowing in the decoder stores the real unchanged.
  - `ToByte` wraps modulo 256 after truncation, whereas the C++ conversion of an out-of-range double to `unsigned char` is undefined.
- `v8_Value_String`, `v8_Value_Float64`, `v8_Value_Int64` and `v8_Value_Bool`: these are numeric and string coercions. In the decoder their results are fields of the script value.
- UTF-8 conversion: the engine's decoding is a function parameter. Strings are sequences of characters, not bytes.
- Memory management: the `malloc` copies, `v8_Free`, and the leaked callback argument array.
- `Bridge.GetIdx`: a getter that throws on a non-buffer object aborts the process (`ToLocalChecked` on an empty result). The model reads the ordinary property instead.
- `Bridge.Run`: requires that the code fits in a string whenever the file name does, because the source aborts (`ToLocalChecked`) on code too long to convert.
- `Bridge.Create`: requires string contents the engine can turn into a string, for the same reason.
- `Bridge.ValueRelease`: requires the handle to be live; releasing twice is undefined behaviour in the source.
- `Bridge.ContextRelease`: the released context is only marked (`contextAlive`). Using it afterwards is not modelled: no operation checks the mark, because the source only resets the context's persistent handle, and a later operation on it would work on an empty handle, which V8 does not allow.
- `Callback.GoCallback`: requires an installed dispatcher. Without one, the source throws and then still calls the null handler.
- `Callback.GoCallback`: does not model the throw or return on the engine side, only which action is taken.
- The `json.Unmarshaler` branch of the decoder: it needs method sets and JSON marshalling. Destination types are assumed not to implement it.
- `GetObjKeys`: its result is a field of the script value, either a key list or an error. The keys are not themselves decoded through `Object.keys`.
- The error `GetIndex` may report in the slice loop: the source ignores it too. The model's element read always succeeds, because a failed `GetIndex` would hand a nil value to the decoder.
- The decoder's default branch ("unsupported variable kind"): every `reflect.Kind` has its own case, so the branch cannot be reached.
- A `nil` destination interface in `ReadInto`: it makes `reflect.TypeOf(dst).Kind()` panic.
- Recursive Go types and cyclic script values cannot be written as these datatypes. The decoder's termination follows the destination type.
- `int` and `uint` are 64 bits wide: a 64-bit platform is assumed.
- `ReadInto.Read`: the result for a non-pointer is stated only as an error that leaves the value unchanged, not by its exact text "dst is not a pointer".

=== FILE: abi.dfy ===
/** The plain-data types the bridge exchanges with its Go caller: the
    `(ptr, len)` pair used for strings, errors, snapshots and byte arrays,
    the value tuple, the caller description handed to callbacks, and the
    tagged immediate value. */
module Abi {
  import opened Wrappers
  import opened Kinds

  /** An unsigned char. */
  type Byte = b: int | 0 <= b < 256

  /** A C `int`. */
  type CInt = i: int | -0x8000_0000 <= i < 0x8000_0000

  /** A `PersistentValuePtr`: the address of one persistent handle. The null
      pointer is `None` wherever a pointer may be null. */
  type Handle = nat

  /** The `(ptr, len)` shape shared by `String`, `Error`, `StartupData` and
      `ByteArray`: `None` is the null pointer, otherwise the memory it points
      to. */
  datatype CBuf<T> = CBuf(ptr: Option<seq<T>>, len: int) {
    /** The pointer is null with length 0, or points at exactly `len`
        elements. */
    predicate WellShaped() {
      match ptr
      case None => len == 0
      case Some(data) => len == |data|
    }
  }

  /** An `Error` whose pointer is null reports success. */
  const NoError: CBuf<char> := CBuf(None, 0)

  /** A freshly allocated copy of `s` (`DupString`). */
  function Dup<T>(s: seq<T>): CBuf<T> {
    CBuf(Some(s), |s|)
  }

  /** The text the Go side reads back from a buffer: `len` elements from
      `ptr`, nothing from a null pointer. */
  function Contents<T>(b: CBuf<T>): (r: seq<T>)
    requires b.WellShaped()
  {
    match b.ptr
    case None => []
    case Some(data) => data
  }

  /** A well-shaped buffer is a copy of its contents or the null buffer,
      and copying a text and reading it back gives the text. */
  lemma DupContents<T>(s: seq<T>)
    ensures Dup(s).WellShaped() && Contents(Dup(s)) == s
    ensures Dup(s).ptr.Some?
  {
  }

  /** `ValueTuple`: a new persistent handle (or null), the kind mask of the
      value it holds, and an error (null pointer for success). */
  datatype ValueTuple = ValueTuple(value: Option<Handle>, kinds: KindMask, error: CBuf<char>)

  /** The tuple every failed operation returns: null handle, mask 0 and the
      message. */
  function Failure(msg: string): ValueTuple {
    ValueTuple(None, 0, Dup(msg))
  }

  /** `CallerInfo`: the innermost script frame of a callback, as texts and
      numbers. */
  datatype CallerInfo = CallerInfo(funcname: CBuf<char>, filename: CBuf<char>, line: int, column: int)

  /** The `ImmediateValueType` enumerators. */
  const tSTRING := 0
  const tBOOL := 1
  const tFLOAT64 := 2
  const tINT64 := 3
  const tOBJECT := 4
  const tARRAY := 5
  const tARRAYBUFFER := 6
  const tUNDEFINED := 7
  const tDATE := 8

  /** `ImmediateValue`: a tag and the payload fields. `mem` carries the
      bytes of a string or array buffer and, for an array, only its length
      matters. `float64` is also the time value of a date, in milliseconds
      since the Unix epoch. Floating-point values are modelled as reals. */
  datatype ImmediateValue = ImmediateValue(tag: int, mem: CBuf<Byte>, boolean: int, float64: real, int64: int)
}

=== FILE: bridge.dfy ===
/** The value operations of the C bridge: what each one checks, in which
    order, which fixed message it fails with, and what it returns and
    changes on success. The engine's own work (running code, calling
    functions, building dates) is an oracle passed in by the caller. */
module Bridge {
  import opened Wrappers
  import opened Kinds
  import opened Abi
  import opened Heap
  import opened Diagnostics
  import opened Text

  /** The engine after an operation and the tuple it returned. */
  datatype Reply = Reply(engine: Engine, tuple: ValueTuple)

  /** How a call into script code ended, with the objects as the code left
      them and the allocation counter after any objects it created. */
  datatype Completion =
    | Returned(value: JsVal, objs: map<ObjId, Obj>, nextObj: ObjId)
    | Threw(caught: Caught, objs: map<ObjId, Obj>, nextObj: ObjId)

  /** The code left the heap consistent: with the engine's handles, the new
      objects are valid, and a returned value refers to an existing object. */
  predicate CompletionFits(e: Engine, c: Completion) {
    var e' := e.(objs := c.objs, nextObj := c.nextObj);
    Valid(e') && (c.Returned? ==> RefOk(e', c.value))
  }

  /** How compiling and running a script ended. */
  datatype Evaluation = CompileFailed(caught: Caught) | Ran(completion: Completion)

  /** What `Object::Set` reported: `Nothing`, `Just(false)` or `Just(true)`. */
  datatype SetAnswer = NoAnswer | Answer(ok: bool)

  const NotAnObject := "Not an object"
  const NotAFunction := "Not a function"
  const NotAPromise := "Not a promise"
  const FieldNameFailed := "Something went wrong -- local value for field name could not be constructed."
  const SetReturnedNothing := "Something went wrong -- set returned nothing."
  const SetFailed := "Something went wrong -- set failed."
  const NonNumberIntoBuffer := "Cannot assign non-number into array buffer"
  const BeyondBuffer := "Cannot assign to an index beyond the size of an array buffer"
  const FilenameFailed := "Error initing filename."
  const NoFile := "(no file)"

  /** The tuple shape every operation keeps: a failure carries a message, a
      null handle and mask 0; a success carries no message, and a handle, if
      any, is live and comes with the mask of the value it holds. */
  predicate Shaped(r: Reply) {
    && r.tuple.error.WellShaped()
    && (r.tuple.error.ptr.Some? ==> r.tuple.value.None? && r.tuple.kinds == 0)
    && (r.tuple.value.Some? ==>
          && r.tuple.value.value in r.engine.handles
          && r.tuple.kinds == MaskOfValue(r.engine, r.engine.handles[r.tuple.value.value])
          && r.tuple.error.ptr.None?)
  }

  /** A successful operation: a new handle holding `v`, with its mask. */
  function Success(e: Engine, v: JsVal): (r: Reply)
    ensures Shaped(r)
    ensures r.tuple.value == Some(e.nextHandle) && r.engine.handles[e.nextHandle] == v
    ensures r.engine.objs == e.objs
    ensures e.nextHandle !in e.handles ==> r.engine.handles - {e.nextHandle} == e.handles
  {
    var (e', h) := NewHandle(e, v);
    Reply(e', ValueTuple(Some(h), MaskOfValue(e', v), NoError))
  }

  function Fail(e: Engine, msg: string): (r: Reply)
    ensures Shaped(r) && r.tuple.error.ptr == Some(msg) && r.engine == e
  {
    Reply(e, Failure(msg))
  }

  /** The diagnostic of a caught exception as an error tuple. */
  function Uncaught(e: Engine, c: Caught): (r: Reply)
    ensures Shaped(r) && r.tuple.error.ptr == Some(ReportException(c)) && r.engine == e
  {
    Fail(e, ReportException(c))
  }

  function Object(e: Engine, h: Handle): Obj
    requires Live(e, h) && e.handles[h].Ref?
  {
    e.objs[e.handles[h].obj]
  }

  predicate IsObject(e: Engine, h: Handle)
    requires h in e.handles
  {
    e.handles[h].Ref?
  }

  predicate IsArrayBuffer(e: Engine, h: Handle)
    requires Live(e, h)
  {
    e.handles[h].Ref? && Object(e, h).body.ArrayBuffer?
  }

  /** `uint32_t(idx)`: the index modulo 2^32. */
  function ToUint32(idx: CInt): (r: nat)
    ensures r < 0x1_0000_0000
    ensures 0 <= idx ==> r == idx
    ensures idx < 0 ==> r == idx + 0x1_0000_0000
  {
    idx % 0x1_0000_0000
  }

  /** The byte a number is stored as: truncated toward zero, then reduced
      modulo 256. */
  function ToByte(n: real): (r: Byte)
    ensures 0.0 <= n < 256.0 ==> r == n.Floor
  {
    var t := if n < 0.0 then -((-n).Floor) else n.Floor;
    t % 256
  }

  // ----- v8_Context_Create -----

  /** `v8_Context_Create`: builds the value an immediate value describes and
      returns a new handle to it, or null for a date the engine could not
      build and for an unknown tag. `dateOk` says whether `Date::New`
      produced a value; `utf8` is the engine's UTF-8 decoding. */
  function Create(e: Engine, v: ImmediateValue, dateOk: bool, utf8: seq<Byte> -> string): (r: (Engine, Option<Handle>))
    requires v.tag == tSTRING || v.tag == tARRAYBUFFER ==> v.mem.WellShaped()
    requires v.tag == tSTRING ==> |utf8(Contents(v.mem))| <= e.maxStringLength
    ensures r.1.None? ==> r.0 == e
    ensures r.1.Some? ==>
              && r.1.value == e.nextHandle && e.nextHandle in r.0.handles
              && r.0.nextHandle == e.nextHandle + 1
              && (forall g | g in e.handles && g != e.nextHandle :: g in r.0.handles && r.0.handles[g] == e.handles[g])
              && (forall p | p in e.objs && p != e.nextObj :: p in r.0.objs && r.0.objs[p] == e.objs[p])
  {
    if v.tag == tARRAY then
      var (e1, o) := NewObject(e, ArrayObj(if v.mem.len < 0 then 0 else v.mem.len));
      Created(e1, Ref(o))
    else if v.tag == tARRAYBUFFER then
      var (e1, o) := NewObject(e, ArrayBuffer(Contents(v.mem)));
      Created(e1, Ref(o))
    else if v.tag == tBOOL then Created(e, Boolean(v.boolean == 1))
    else if v.tag == tDATE then
      if !dateOk then (e, None)
      else
        var (e1, o) := NewObject(e, Date(v.float64));
        Created(e1, Ref(o))
    else if v.tag == tFLOAT64 then Created(e, Number(v.float64))
    else if v.tag == tINT64 then Created(e, Number(v.int64 as real))
    else if v.tag == tOBJECT then
      var (e1, o) := NewObject(e, Plain);
      Created(e1, Ref(o))
    else if v.tag == tSTRING then Created(e, JsString(utf8(Contents(v.mem))))
    else if v.tag == tUNDEFINED then Created(e, Undefined)
    else (e, None)
  }

  function Created(e: Engine, v: JsVal): (Engine, Option<Handle>) {
    var (e1, h) := NewHandle(e, v);
    (e1, Some(h))
  }

  /** Create returns null exactly for a date the engine refused and for a
      tag outside the enumeration; otherwise a fresh handle. */
  lemma CreateNull(e: Engine, v: ImmediateValue, dateOk: bool, utf8: seq<Byte> -> string)
    requires v.tag == tSTRING || v.tag == tARRAYBUFFER ==> v.mem.WellShaped()
    requires v.tag == tSTRING ==> |utf8(Contents(v.mem))| <= e.maxStringLength
    ensures var (e', h) := Create(e, v, dateOk, utf8);
            && (h.None? <==> (v.tag == tDATE && !dateOk) || v.tag < 0 || v.tag > tDATE)
            && (h.None? ==> e' == e)
            && (h.Some? ==> h.value == e.nextHandle && h.value in e'.handles)
  {
  }

  /** Each tag builds the value it names: a boolean that is true exactly when
      `Bool` is 1, numbers from the numeric fields, an empty object, an
      array whose length is `Mem.len` (0 when negative), a buffer holding
      exactly the bytes of `Mem`, and `undefined`. */
  lemma CreateValues(e: Engine, v: ImmediateValue, dateOk: bool, utf8: seq<Byte> -> string)
    requires v.tag == tSTRING || v.tag == tARRAYBUFFER ==> v.mem.WellShaped()
    requires v.tag == tSTRING ==> |utf8(Contents(v.mem))| <= e.maxStringLength
    ensures var (e', h) := Create(e, v, dateOk, utf8);
            && (v.tag == tBOOL ==> e'.handles[h.value] == Boolean(v.boolean == 1))
            && (v.tag == tFLOAT64 ==> e'.handles[h.value] == Number(v.float64))
            && (v.tag == tINT64 ==> e'.handles[h.value] == Number(v.int64 as real))
            && (v.tag == tSTRING ==> e'.handles[h.value] == JsString(utf8(Contents(v.mem))))
            && (v.tag == tUNDEFINED ==> e'.handles[h.value] == Undefined)
            && (v.tag == tOBJECT ==>
                  e'.handles[h.value] == Ref(e.nextObj) && e'.objs[e.nextObj] == Obj(Plain, {}, map[]))
            && (v.tag == tARRAY ==>
                  && e'.handles[h.value] == Ref(e.nextObj)
                  && e'.objs[e.nextObj].body == ArrayObj(if v.mem.len < 0 then 0 else v.mem.len))
            && (v.tag == tARRAYBUFFER ==>
                  && e'.handles[h.value] == Ref(e.nextObj)
                  && e'.objs[e.nextObj].body == ArrayBuffer(Contents(v.mem)))
            && (v.tag == tDATE && dateOk ==>
                  && e'.handles[h.value] == Ref(e.nextObj)
                  && e'.objs[e.nextObj].body == Date(v.float64))
  {
  }

  // ----- v8_Value_Get / v8_Value_GetIdx -----

  /** `v8_Value_Get`: a non-object fails with "Not an object". Otherwise a
      new handle to the property's value, `undefined` when the field name is
      too long to become a string or the read threw (`getThrew`). */
  function Get(e: Engine, h: Handle, field: string, getThrew: bool): (r: Reply)
    requires Live(e, h)
    ensures Shaped(r)
  {
    if !IsObject(e, h) then Fail(e, NotAnObject)
    else if |field| > e.maxStringLength || getThrew then Success(e, Undefined)
    else Success(e, Lookup(Object(e, h), KeyOfName(field)))
  }

  /** Get fails on a non-object with "Not an object" and changes nothing;
      on an object it returns a fresh handle to the property's value, or to
      `undefined` when the name cannot become a string or the read threw. */
  lemma GetOutcome(e: Engine, h: Handle, field: string, getThrew: bool)
    requires Live(e, h)
    ensures var r := Get(e, h, field, getThrew);
            && (!e.handles[h].Ref? ==> r == Reply(e, Failure(NotAnObject)))
            && (e.handles[h].Ref? ==>
                  && r.tuple.value == Some(e.nextHandle) && r.tuple.error == NoError
                  && r.engine.handles[e.nextHandle]
                     == if |field| > e.maxStringLength || getThrew then Undefined
                        else Lookup(Object(e, h), KeyOfName(field)))
  {
  }

  /** `v8_Value_GetIdx`: a non-object fails with "Not an object". On an array
      buffer an index inside it reads its byte as a number and any other
      index (negative ones included, as they compare as huge unsigned values)
      reads `undefined`; on any other object the index is taken modulo 2^32. */
  function GetIdx(e: Engine, h: Handle, idx: CInt): (r: Reply)
    requires Live(e, h)
    ensures Shaped(r)
  {
    if !IsObject(e, h) then Fail(e, NotAnObject)
    else
      var o := Object(e, h);
      if o.body.ArrayBuffer? then
        if 0 <= idx < |o.body.bytes| then Success(e, Number(o.body.bytes[idx] as real))
        else Success(e, Undefined)
      else Success(e, Lookup(o, KeyOfIndex(ToUint32(idx))))
  }

  /** Reading from anything but an object fails with a null handle, mask 0
      and "Not an object", and changes nothing. */
  lemma GetIdxNotAnObject(e: Engine, h: Handle, idx: CInt)
    requires Live(e, h) && !e.handles[h].Ref?
    ensures GetIdx(e, h, idx) == Reply(e, ValueTuple(None, 0, Dup(NotAnObject)))
  {
  }

  /** Array-buffer reads: inside the buffer, a number equal to the byte;
      outside it, `undefined` and no error. */
  lemma GetIdxBuffer(e: Engine, h: Handle, idx: CInt)
    requires Live(e, h) && IsArrayBuffer(e, h)
    ensures var r := GetIdx(e, h, idx);
            var bytes := Object(e, h).body.bytes;
            && r.tuple.error == NoError && r.tuple.value == Some(e.nextHandle)
            && r.engine.handles[e.nextHandle]
               == (if 0 <= idx < |bytes| then Number(bytes[idx] as real) else Undefined)
            && (0 <= idx < |bytes| ==> 0.0 <= r.engine.handles[e.nextHandle].n < 256.0)
  {
  }

  /** On an object that is not an array buffer, the element read is the
      property at the index modulo 2^32, or `undefined` when there is none,
      returned in a fresh handle with no error. */
  lemma GetIdxObject(e: Engine, h: Handle, idx: CInt)
    requires Live(e, h) && e.handles[h].Ref? && !Object(e, h).body.ArrayBuffer?
    ensures var r := GetIdx(e, h, idx);
            var key := KeyOfIndex(ToUint32(idx));
            && r.tuple.error == NoError
            && r.tuple.value == Some(e.nextHandle)
            && r.engine.handles[e.nextHandle] == Lookup(Object(e, h), key)
            && (key !in Object(e, h).props ==> r.engine.handles[e.nextHandle] == Undefined)
  {
  }

  // ----- v8_Value_Set / v8_Value_SetIdx -----

  /** The object a successful write leaves behind. */
  function Write(e: Engine, h: Handle, key: PropKey, v: JsVal): Engine
    requires Live(e, h) && e.handles[h].Ref?
  {
    e.(objs := e.objs[e.handles[h].obj := Store(Object(e, h), key, v)])
  }

  /** `v8_Value_Set`: in order, "Not an object" for a non-object receiver, a
      message for a field name that cannot become a string, then the set
      outcome: nothing, false, or success with a null error after writing
      the property. */
  function Set(e: Engine, h: Handle, field: string, nh: Handle, answer: SetAnswer): (r: (Engine, CBuf<char>))
    requires Live(e, h)
    requires e.handles[h].Ref? ==> nh in e.handles
    ensures r.1.WellShaped()
    ensures r.1.ptr.None? <==> e.handles[h].Ref? && |field| <= e.maxStringLength && answer == Answer(true)
    ensures r.1.ptr.Some? ==> r.0 == e
  {
    if !IsObject(e, h) then (e, Dup(NotAnObject))
    else if |field| > e.maxStringLength then (e, Dup(FieldNameFailed))
    else match answer
      case NoAnswer => (e, Dup(SetReturnedNothing))
      case Answer(false) => (e, Dup(SetFailed))
      case Answer(true) => (Write(e, h, KeyOfName(field), e.handles[nh]), NoError)
  }

  /** A successful Set changes only the one property: every other property
      of every object, and every handle, is as before. */
  lemma SetOnlyThatProperty(e: Engine, h: Handle, field: string, nh: Handle)
    requires Live(e, h) && e.handles[h].Ref? && nh in e.handles
    requires |field| <= e.maxStringLength
    ensures var (e', err) := Set(e, h, field, nh, Answer(true));
            var o := e.handles[h].obj;
            && err == NoError
            && e'.handles == e.handles && e'.objs.Keys == e.objs.Keys
            && Lookup(e'.objs[o], KeyOfName(field)) == e.handles[nh]
            && (forall k | k != KeyOfName(field) :: Lookup(e'.objs[o], k) == Lookup(e.objs[o], k))
            && (forall p | p in e.objs && p != o :: e'.objs[p] == e.objs[p])
  {
  }

  /** In the engine model, where every property is an ordinary data
      property, writing a property and reading it back through the same
      handle gives the value written. */
  lemma SetThenGet(e: Engine, h: Handle, field: string, nh: Handle)
    requires Live(e, h) && e.handles[h].Ref? && nh in e.handles
    requires |field| <= e.maxStringLength
    ensures var (e', _) := Set(e, h, field, nh, Answer(true));
            Live(e', h) && Get(e', h, field, false).engine.handles[e'.nextHandle] == e.handles[nh]
  {
  }

  /** The error messages of Set, each in the situation that produces it. */
  lemma SetErrors(e: Engine, h: Handle, field: string, nh: Handle, answer: SetAnswer)
    requires Live(e, h)
    requires e.handles[h].Ref? ==> nh in e.handles
    ensures var err := Set(e, h, field, nh, answer).1;
            && (!e.handles[h].Ref? ==> err == Dup(NotAnObject))
            && (e.handles[h].Ref? && |field| > e.maxStringLength ==> err == Dup(FieldNameFailed))
            && ((e.handles[h].Ref? && |field| <= e.maxStringLength && answer == NoAnswer)
                  ==> err == Dup(SetReturnedNothing))
            && ((e.handles[h].Ref? && |field| <= e.maxStringLength && answer == Answer(false))
                  ==> err == Dup(SetFailed))
  {
  }

  /** `v8_Value_SetIdx`. On an array buffer: "Cannot assign non-number into
      array buffer" for a non-number, then "Cannot assign to an index beyond
      the size of an array buffer" for an index outside it (negative indexes
      compare as huge unsigned values), otherwise the number is stored as a
      byte. On any other object the element at the index modulo 2^32 is set,
      with the same outcomes as Set. */
  function SetIdx(e: Engine, h: Handle, idx: CInt, nh: Handle, answer: SetAnswer): (r: (Engine, CBuf<char>))
    requires Live(e, h)
    requires e.handles[h].Ref? ==> nh in e.handles
    ensures r.1.WellShaped()
    ensures r.1.ptr.Some? ==> r.0 == e
  {
    if !IsObject(e, h) then (e, Dup(NotAnObject))
    else
      var o := Object(e, h);
      var nv := e.handles[nh];
      if o.body.ArrayBuffer? then
        if !nv.Number? then (e, Dup(NonNumberIntoBuffer))
        else if idx < 0 || idx >= |o.body.bytes| then (e, Dup(BeyondBuffer))
        else
          var bytes := o.body.bytes[idx := ToByte(nv.n)];
          (e.(objs := e.objs[e.handles[h].obj := o.(body := ArrayBuffer(bytes))]), NoError)
      else match answer
        case NoAnswer => (e, Dup(SetReturnedNothing))
        case Answer(false) => (e, Dup(SetFailed))
        case Answer(true) => (Write(e, h, KeyOfIndex(ToUint32(idx)), nv), NoError)
  }

  /** Writing an element of anything but an object fails with "Not an
      object" and changes nothing. */
  lemma SetIdxNotAnObject(e: Engine, h: Handle, idx: CInt, nh: Handle, answer: SetAnswer)
    requires Live(e, h) && !e.handles[h].Ref?
    ensures SetIdx(e, h, idx, nh, answer) == (e, Dup(NotAnObject))
  {
  }

  /** The checks of an array-buffer write come in the order non-number,
      index beyond the buffer; a write that passes them both succeeds and
      changes only byte `idx` of that buffer. */
  lemma SetIdxBuffer(e: Engine, h: Handle, idx: CInt, nh: Handle, answer: SetAnswer)
    requires Live(e, h) && IsArrayBuffer(e, h) && nh in e.handles
    ensures var (e', err) := SetIdx(e, h, idx, nh, answer);
            var o := e.handles[h].obj;
            var bytes := e.objs[o].body.bytes;
            && (!e.handles[nh].Number? ==> err == Dup(NonNumberIntoBuffer))
            && (e.handles[nh].Number? && !(0 <= idx < |bytes|) ==> err == Dup(BeyondBuffer))
            && (e.handles[nh].Number? && 0 <= idx < |bytes| ==>
                  && err == NoError
                  && e'.handles == e.handles
                  && e'.objs == e.objs[o := e.objs[o].(body := ArrayBuffer(bytes[idx := ToByte(e.handles[nh].n)]))])
  {
  }

  /** On an object that is not an array buffer, the element write has the
      outcomes of Set: "set returned nothing.", "set failed.", or success
      changing only the element at the index modulo 2^32. */
  lemma SetIdxObject(e: Engine, h: Handle, idx: CInt, nh: Handle, answer: SetAnswer)
    requires Live(e, h) && e.handles[h].Ref? && !IsArrayBuffer(e, h) && nh in e.handles
    ensures var (e', err) := SetIdx(e, h, idx, nh, answer);
            var o := e.handles[h].obj;
            var key := KeyOfIndex(ToUint32(idx));
            && (answer == NoAnswer ==> e' == e && err == Dup(SetReturnedNothing))
            && (answer == Answer(false) ==> e' == e && err == Dup(SetFailed))
            && (answer == Answer(true) ==>
                  && err == NoError
                  && e'.handles == e.handles && e'.objs.Keys == e.objs.Keys
                  && Lookup(e'.objs[o], key) == e.handles[nh]
                  && (forall k | k != key :: Lookup(e'.objs[o], k) == Lookup(e.objs[o], k))
                  && (forall p | p in e.objs && p != o :: e'.objs[p] == e.objs[p]))
  {
  }

  /** A property written under the decimal name of an index is the element
      read at that index: names and indexes share one key space. */
  lemma SetNameThenGetIdx(e: Engine, h: Handle, idx: CInt, nh: Handle)
    requires Live(e, h) && e.handles[h].Ref? && !IsArrayBuffer(e, h) && nh in e.handles
    requires 0 <= idx && |NatToString(idx)| <= e.maxStringLength
    ensures var (e', _) := Set(e, h, NatToString(idx), nh, Answer(true));
            Live(e', h) && GetIdx(e', h, idx).engine.handles[e'.nextHandle] == e.handles[nh]
  {
    NameAndIndexAgree(idx);
  }

  /** Storing a number into a buffer and reading the same index back gives
      the stored byte as a number; a byte value round-trips exactly. */
  lemma SetIdxThenGetIdx(e: Engine, h: Handle, idx: CInt, nh: Handle, answer: SetAnswer)
    requires Live(e, h) && IsArrayBuffer(e, h) && nh in e.handles
    requires e.handles[nh].Number? && 0 <= idx < |Object(e, h).body.bytes|
    ensures var (e', _) := SetIdx(e, h, idx, nh, answer);
            && Live(e', h)
            && GetIdx(e', h, idx).engine.handles[e'.nextHandle] == Number(ToByte(e.handles[nh].n) as real)
            && (0.0 <= e.handles[nh].n < 256.0 && e.handles[nh].n.Floor as real == e.handles[nh].n ==>
                  GetIdx(e', h, idx).engine.handles[e'.nextHandle] == e.handles[nh])
  {
  }

  // ----- v8_Value_Call / v8_Value_New -----

  /** The values of the argument handles, in order (the loop that fills
      `argv`). */
  method ResolveArgs(e: Engine, argv: seq<Handle>) returns (args: seq<JsVal>)
    requires forall i | 0 <= i < |argv| :: argv[i] in e.handles
    ensures |args| == |argv|
    ensures forall i | 0 <= i < |argv| :: args[i] == e.handles[argv[i]]
    ensures args == Args(e, argv)
  {
    args := [];
    var i := 0;
    while i < |argv|
      invariant 0 <= i <= |argv|
      invariant |args| == i
      invariant forall j | 0 <= j < i :: args[j] == e.handles[argv[j]]
    {
      args := args + [e.handles[argv[i]]];
      i := i + 1;
    }
  }

  /** The argument values `Call` and `New` pass, as one expression. */
  function Args(e: Engine, argv: seq<Handle>): seq<JsVal>
    requires forall i | 0 <= i < |argv| :: argv[i] in e.handles
  {
    seq(|argv|, i requires 0 <= i < |argv| => e.handles[argv[i]])
  }

  predicate IsFunction(e: Engine, h: Handle)
    requires Live(e, h)
  {
    e.handles[h].Ref? && Object(e, h).body.Function?
  }

  /** The receiver of a call: the given value, or the context's global
      object when the pointer is null. */
  function Receiver(e: Engine, self: Option<Handle>): JsVal
    requires self.Some? ==> self.value in e.handles
  {
    match self
    case None => Ref(e.global)
    case Some(s) => e.handles[s]
  }

  /** A new handle to a returned value, or the diagnostic of an exception;
      the objects are as the code left them either way. */
  function Finish(e: Engine, c: Completion): (r: Reply)
    ensures Shaped(r)
    ensures r.engine.objs == c.objs && r.engine.nextObj == c.nextObj
  {
    match c
    case Returned(v, objs, next) => Success(e.(objs := objs, nextObj := next), v)
    case Threw(caught, objs, next) => Uncaught(e.(objs := objs, nextObj := next), caught)
  }

  /** `v8_Value_Call`: "Not a function" unless the callee is a function;
      otherwise the function is invoked (`invoke`) on the receiver and the
      argument values in order. */
  function Call(e: Engine, f: Handle, self: Option<Handle>, argv: seq<Handle>,
                invoke: (JsVal, JsVal, seq<JsVal>) -> Completion): (r: Reply)
    requires Live(e, f)
    requires IsFunction(e, f) ==> self.Some? ==> self.value in e.handles
    requires IsFunction(e, f) ==> forall i | 0 <= i < |argv| :: argv[i] in e.handles
    ensures Shaped(r)
    ensures !IsFunction(e, f) ==> r == Reply(e, Failure(NotAFunction))
  {
    if !IsFunction(e, f) then Fail(e, NotAFunction)
    else Finish(e, invoke(e.handles[f], Receiver(e, self), Args(e, argv)))
  }

  /** The callee sees the global object as receiver when no receiver is
      given, and the argument values in the order of `argv`; the reply is
      the callee's completion. */
  lemma CallPassesArguments(e: Engine, f: Handle, self: Option<Handle>, argv: seq<Handle>,
                            invoke: (JsVal, JsVal, seq<JsVal>) -> Completion, args: seq<JsVal>)
    requires Live(e, f) && IsFunction(e, f)
    requires self.Some? ==> self.value in e.handles
    requires forall i | 0 <= i < |argv| :: argv[i] in e.handles
    requires |args| == |argv| && forall i | 0 <= i < |argv| :: args[i] == e.handles[argv[i]]
    ensures var recv := if self.None? then Ref(e.global) else e.handles[self.value];
            Call(e, f, self, argv, invoke) == Finish(e, invoke(e.handles[f], recv, args))
  {
    assert Args(e, argv) == args;
  }

  /** A call that throws replies with the diagnostic of the exception and a
      null handle; one that returns replies with a fresh handle to the
      result. */
  lemma CallOutcome(e: Engine, f: Handle, self: Option<Handle>, argv: seq<Handle>,
                    invoke: (JsVal, JsVal, seq<JsVal>) -> Completion)
    requires Live(e, f) && IsFunction(e, f)
    requires self.Some? ==> self.value in e.handles
    requires forall i | 0 <= i < |argv| :: argv[i] in e.handles
    ensures var c := invoke(e.handles[f], Receiver(e, self), Args(e, argv));
            var r := Call(e, f, self, argv, invoke);
            && (c.Threw? ==> r.tuple == Failure(ReportException(c.caught)))
            && (c.Returned? ==>
                  && r.tuple.value == Some(e.nextHandle)
                  && r.engine.handles[e.nextHandle] == c.value
                  && r.tuple.error == NoError)
  {
  }

  /** `v8_Value_New`: as Call, but constructs (`construct`) with the
      arguments in order and no receiver. */
  function New(e: Engine, f: Handle, argv: seq<Handle>,
               construct: (JsVal, seq<JsVal>) -> Completion): (r: Reply)
    requires Live(e, f)
    requires IsFunction(e, f) ==> forall i | 0 <= i < |argv| :: argv[i] in e.handles
    ensures Shaped(r)
    ensures !IsFunction(e, f) ==> r == Reply(e, Failure(NotAFunction))
    ensures IsFunction(e, f) ==> r.engine.objs == construct(e.handles[f], Args(e, argv)).objs
  {
    if !IsFunction(e, f) then Fail(e, NotAFunction)
    else Finish(e, construct(e.handles[f], Args(e, argv)))
  }

  /** The constructor sees the argument values in the order of `argv`; the
      reply is its completion. */
  lemma NewPassesArguments(e: Engine, f: Handle, argv: seq<Handle>,
                           construct: (JsVal, seq<JsVal>) -> Completion, args: seq<JsVal>)
    requires Live(e, f) && IsFunction(e, f)
    requires forall i | 0 <= i < |argv| :: argv[i] in e.handles
    requires |args| == |argv| && forall i | 0 <= i < |argv| :: args[i] == e.handles[argv[i]]
    ensures New(e, f, argv, construct) == Finish(e, construct(e.handles[f], args))
  {
    assert Args(e, argv) == args;
  }

  /** A constructor that throws replies with the diagnostic of the
      exception and a null handle; one that returns replies with a fresh
      handle to the constructor's result and no error. */
  lemma NewOutcome(e: Engine, f: Handle, argv: seq<Handle>,
                   construct: (JsVal, seq<JsVal>) -> Completion)
    requires Live(e, f) && IsFunction(e, f)
    requires forall i | 0 <= i < |argv| :: argv[i] in e.handles
    ensures var c := construct(e.handles[f], Args(e, argv));
            var r := New(e, f, argv, construct);
            && (c.Threw? ==> r.tuple == Failure(ReportException(c.caught)))
            && (c.Returned? ==>
                  && r.tuple.value == Some(e.nextHandle)
                  && r.engine.handles[e.nextHandle] == c.value
                  && r.tuple.error == NoError)
  {
  }

  // ----- v8_Value_PromiseInfo -----

  /** `v8_Value_PromiseInfo`: "Not a promise" (the state left as it was)
      unless the value is a promise; otherwise the state is written, and a
      pending promise yields an all-null tuple while a settled one yields a
      new handle to its result. */
  function PromiseInfo(e: Engine, h: Handle, state: int): (r: (Reply, int))
    requires Live(e, h)
    ensures Shaped(r.0)
  {
    var v := e.handles[h];
    if !(v.Ref? && Object(e, h).body.Promise?) then (Fail(e, NotAPromise), state)
    else
      var p := Object(e, h).body;
      if p.state == kPending then (Reply(e, ValueTuple(None, 0, NoError)), p.state)
      else (Success(e, p.result), p.state)
  }

  lemma PromiseInfoStates(e: Engine, h: Handle, state: int)
    requires Live(e, h)
    ensures var (r, s) := PromiseInfo(e, h, state);
            var v := e.handles[h];
            && (!(v.Ref? && e.objs[v.obj].body.Promise?) ==> s == state && r.tuple == Failure(NotAPromise))
            && (v.Ref? && e.objs[v.obj].body.Promise? ==>
                  && s == e.objs[v.obj].body.state
                  && (s == kPending ==> r == Reply(e, ValueTuple(None, 0, NoError)))
                  && (s != kPending ==>
                        && r.tuple.error == NoError
                        && r.tuple.value == Some(e.nextHandle)
                        && r.engine.handles[e.nextHandle] == e.objs[v.obj].body.result))
  {
  }

  // ----- v8_Value_Bytes -----

  /** `v8_Value_Bytes`: the whole contents of an array buffer, or of the
      buffer behind a typed array; the null buffer for anything else. */
  function Bytes(e: Engine, h: Handle): (r: CBuf<Byte>)
    requires Live(e, h)
    ensures r.WellShaped()
    ensures !e.handles[h].Ref? ==> r == CBuf(None, 0)
    ensures e.handles[h].Ref? && Object(e, h).body.ArrayBuffer? ==> Contents(r) == Object(e, h).body.bytes
  {
    var v := e.handles[h];
    if !v.Ref? then CBuf(None, 0)
    else
      var body := Object(e, h).body;
      match body
      case TypedArray(b) =>
        if b in e.objs && e.objs[b].body.ArrayBuffer? then Dup(e.objs[b].body.bytes) else CBuf(None, 0)
      case ArrayBuffer(bytes) => Dup(bytes)
      case _ => CBuf(None, 0)
  }

  /** A buffer created from bytes hands the same bytes back. */
  lemma CreateThenBytes(e: Engine, v: ImmediateValue, dateOk: bool, utf8: seq<Byte> -> string)
    requires v.tag == tARRAYBUFFER && v.mem.WellShaped()
    ensures var (e', h) := Create(e, v, dateOk, utf8);
            h.Some? && Live(e', h.value) && Contents(Bytes(e', h.value)) == Contents(v.mem)
  {
  }

  /** A typed array hands back the whole of its backing buffer, whatever
      part of it the view covers. */
  lemma BytesOfTypedArray(e: Engine, h: Handle)
    requires Live(e, h) && e.handles[h].Ref? && Object(e, h).body.TypedArray?
    ensures var b := Object(e, h).body.buffer;
            b in e.objs && e.objs[b].body.ArrayBuffer? ==> Contents(Bytes(e, h)) == e.objs[b].body.bytes
  {
  }

  /** Only buffers and typed arrays have bytes. */
  lemma BytesOfOthers(e: Engine, h: Handle)
    requires Live(e, h)
    requires !e.handles[h].Ref? || !(Object(e, h).body.ArrayBuffer? || Object(e, h).body.TypedArray?)
    ensures Bytes(e, h) == CBuf(None, 0)
  {
  }

  // ----- v8_Value_Release / v8_Context_Release -----

  /** `v8_Value_Release`: nothing happens for a null context pointer
      (`ctxNull`) or a null value; otherwise the handle is disposed of. */
  function ValueRelease(e: Engine, ctxNull: bool, h: Option<Handle>): (r: Engine)
    requires !ctxNull && h.Some? ==> h.value in e.handles
    ensures ctxNull || h.None? ==> r == e
    ensures !ctxNull && h.Some? ==>
              && h.value !in r.handles
              && (forall g | g in e.handles && g != h.value :: g in r.handles && r.handles[g] == e.handles[g])
              && r.handles.Keys <= e.handles.Keys
              && r.objs == e.objs && r.nextHandle == e.nextHandle
  {
    if ctxNull || h.None? then e
    else e.(handles := e.handles - {h.value})
  }

  /** `v8_Context_Release`: nothing happens for a null context; otherwise
      the context's persistent handle is reset. */
  function ContextRelease(ctx: Option<Engine>): (r: Option<Engine>)
    ensures ctx.None? <==> r.None?
    ensures ctx.Some? ==> !r.value.contextAlive && r.value.handles == ctx.value.handles
    ensures ctx.Some? ==> r.value.objs == ctx.value.objs
  {
    match ctx
    case None => None
    case Some(e) => Some(e.(contextAlive := false))
  }

  // ----- v8_Context_Run -----

  /** `v8_Context_Run`: the file name defaults to "(no file)"; a name too
      long to become a string fails with "Error initing filename."; a script
      that does not compile or throws fails with the diagnostic of the
      exception; otherwise a new handle to the completion value. */
  function Run(e: Engine, code: string, filename: Option<string>,
               evaluate: (string, string) -> Evaluation): (r: Reply)
    requires |filename.GetOr(NoFile)| <= e.maxStringLength ==> |code| <= e.maxStringLength
    ensures Shaped(r)
  {
    var name := filename.GetOr(NoFile);
    if |name| > e.maxStringLength then Fail(e, FilenameFailed)
    else match evaluate(code, name)
      case CompileFailed(c) => Uncaught(e, c)
      case Ran(c) => Finish(e, c)
  }

  /** The script is compiled under the given file name, or "(no file)"; an
      error reply carries a null handle and mask 0, a successful one a fresh
      handle and no error. */
  lemma RunOutcome(e: Engine, code: string, filename: Option<string>,
                   evaluate: (string, string) -> Evaluation)
    requires |filename.GetOr(NoFile)| <= e.maxStringLength ==> |code| <= e.maxStringLength
    ensures var name := if filename.None? then NoFile else filename.value;
            var r := Run(e, code, filename, evaluate);
            && (|name| > e.maxStringLength ==> r.tuple == Failure(FilenameFailed) && r.engine == e)
            && (|name| <= e.maxStringLength && evaluate(code, name).CompileFailed? ==>
                  r.tuple == Failure(ReportException(evaluate(code, name).caught)))
            && (|name| <= e.maxStringLength && evaluate(code, name).CompileFailed? ==> r.engine == e)
            && (|name| <= e.maxStringLength && evaluate(code, name).Ran?
                && evaluate(code, name).completion.Threw? ==>
                  && r.tuple == Failure(ReportException(evaluate(code, name).completion.caught))
                  && r.engine.objs == evaluate(code, name).completion.objs)
            && (|name| <= e.maxStringLength && evaluate(code, name).Ran?
                && evaluate(code, name).completion.Returned? ==>
                  && r.tuple.value == Some(e.nextHandle)
                  && r.tuple.error == NoError
                  && r.engine.handles[e.nextHandle] == evaluate(code, name).completion.value
                  && r.engine.objs == evaluate(code, name).completion.objs)
  {
  }

  // ----- The engine invariant -----

  /** Create keeps the engine consistent. */
  lemma CreateKeepsValid(e: Engine, v: ImmediateValue, dateOk: bool, utf8: seq<Byte> -> string)
    requires Valid(e)
    requires v.tag == tSTRING || v.tag == tARRAYBUFFER ==> v.mem.WellShaped()
    requires v.tag == tSTRING ==> |utf8(Contents(v.mem))| <= e.maxStringLength
    ensures Valid(Create(e, v, dateOk, utf8).0)
  {
    var body := if v.tag == tARRAY then ArrayObj(if v.mem.len < 0 then 0 else v.mem.len)
                else if v.tag == tARRAYBUFFER then ArrayBuffer(Contents(v.mem))
                else if v.tag == tDATE then Date(v.float64)
                else Plain;
    if v.tag == tARRAY || v.tag == tARRAYBUFFER || (v.tag == tDATE && dateOk) || v.tag == tOBJECT {
      var (e1, o) := NewObject(e, body);
      NewObjectFresh(e, body);
      NewHandleFresh(e1, Ref(o));
    } else if v.tag == tBOOL || v.tag == tFLOAT64 || v.tag == tINT64 || v.tag == tSTRING || v.tag == tUNDEFINED {
      var w := Create(e, v, dateOk, utf8).0;
      assert w.objs == e.objs;
    }
  }

  /** A value a valid engine hands out refers only to existing objects. */
  lemma LookupOk(e: Engine, p: ObjId, key: PropKey)
    requires Valid(e) && p in e.objs
    ensures RefOk(e, Lookup(e.objs[p], key))
  {
    assert ObjOk(e, e.objs[p]);
  }

  /** Get keeps the engine consistent. */
  lemma GetKeepsValid(e: Engine, h: Handle, field: string, getThrew: bool)
    requires Valid(e) && Live(e, h)
    ensures Valid(Get(e, h, field, getThrew).engine)
  {
    if IsObject(e, h) && |field| <= e.maxStringLength && !getThrew {
      var v := Lookup(Object(e, h), KeyOfName(field));
      LookupOk(e, e.handles[h].obj, KeyOfName(field));
      NewHandleFresh(e, v);
    } else if IsObject(e, h) {
      NewHandleFresh(e, Undefined);
    }
  }

  /** GetIdx keeps the engine consistent. */
  lemma GetIdxKeepsValid(e: Engine, h: Handle, idx: CInt)
    requires Valid(e) && Live(e, h)
    ensures Valid(GetIdx(e, h, idx).engine)
  {
    if IsObject(e, h) {
      var o := Object(e, h);
      if o.body.ArrayBuffer? {
        if 0 <= idx < |o.body.bytes| {
          NewHandleFresh(e, Number(o.body.bytes[idx] as real));
        } else {
          NewHandleFresh(e, Undefined);
        }
      } else {
        LookupOk(e, e.handles[h].obj, KeyOfIndex(ToUint32(idx)));
        NewHandleFresh(e, Lookup(o, KeyOfIndex(ToUint32(idx))));
      }
    }
  }

  /** Writing a value that refers only to existing objects keeps the engine
      consistent. */
  lemma WriteKeepsValid(e: Engine, h: Handle, key: PropKey, v: JsVal)
    requires Valid(e) && Live(e, h) && e.handles[h].Ref? && RefOk(e, v)
    ensures Valid(Write(e, h, key, v))
  {
    var e' := Write(e, h, key, v);
    var o := e.handles[h].obj;
    forall p | p in e'.objs ensures p < e'.nextObj && ObjOk(e', e'.objs[p]) {
      assert ObjOk(e, e.objs[p]);
    }
  }

  /** Set keeps the engine consistent. */
  lemma SetKeepsValid(e: Engine, h: Handle, field: string, nh: Handle, answer: SetAnswer)
    requires Valid(e) && Live(e, h)
    requires e.handles[h].Ref? ==> nh in e.handles
    ensures Valid(Set(e, h, field, nh, answer).0)
  {
    if IsObject(e, h) && |field| <= e.maxStringLength && answer == Answer(true) {
      WriteKeepsValid(e, h, KeyOfName(field), e.handles[nh]);
    }
  }

  /** SetIdx keeps the engine consistent. */
  lemma SetIdxKeepsValid(e: Engine, h: Handle, idx: CInt, nh: Handle, answer: SetAnswer)
    requires Valid(e) && Live(e, h)
    requires e.handles[h].Ref? ==> nh in e.handles
    ensures Valid(SetIdx(e, h, idx, nh, answer).0)
  {
    if IsObject(e, h) {
      var o := Object(e, h);
      if o.body.ArrayBuffer? {
        var e' := SetIdx(e, h, idx, nh, answer).0;
        forall p | p in e'.objs ensures p < e'.nextObj && ObjOk(e', e'.objs[p]) {
          assert ObjOk(e, e.objs[p]);
        }
      } else if answer == Answer(true) {
        WriteKeepsValid(e, h, KeyOfIndex(ToUint32(idx)), e.handles[nh]);
      }
    }
  }

  /** PromiseInfo keeps the engine consistent. */
  lemma PromiseInfoKeepsValid(e: Engine, h: Handle, state: int)
    requires Valid(e) && Live(e, h)
    ensures Valid(PromiseInfo(e, h, state).0.engine)
  {
    var v := e.handles[h];
    if v.Ref? && Object(e, h).body.Promise? && Object(e, h).body.state != kPending {
      assert ObjOk(e, e.objs[v.obj]);
      NewHandleFresh(e, Object(e, h).body.result);
    }
  }

  /** Releasing a handle keeps the engine consistent. */
  lemma ValueReleaseKeepsValid(e: Engine, ctxNull: bool, h: Option<Handle>)
    requires Valid(e)
    requires !ctxNull && h.Some? ==> h.value in e.handles
    ensures Valid(ValueRelease(e, ctxNull, h))
  {
    var e' := ValueRelease(e, ctxNull, h);
    forall p | p in e'.objs ensures p < e'.nextObj && ObjOk(e', e'.objs[p]) {
      assert ObjOk(e, e.objs[p]);
    }
  }

  /** Finishing with a completion that left the heap consistent keeps the
      engine consistent. */
  lemma FinishKeepsValid(e: Engine, c: Completion)
    requires Valid(e) && CompletionFits(e, c)
    ensures Valid(Finish(e, c).engine)
  {
    var e' := e.(objs := c.objs, nextObj := c.nextObj);
    if c.Returned? {
      NewHandleFresh(e', c.value);
    }
  }

  /** Call keeps the engine consistent when the callee leaves the heap
      consistent. */
  lemma CallKeepsValid(e: Engine, f: Handle, self: Option<Handle>, argv: seq<Handle>,
                       invoke: (JsVal, JsVal, seq<JsVal>) -> Completion)
    requires Valid(e) && Live(e, f)
    requires IsFunction(e, f) ==> self.Some? ==> self.value in e.handles
    requires IsFunction(e, f) ==> forall i | 0 <= i < |argv| :: argv[i] in e.handles
    requires IsFunction(e, f) ==> CompletionFits(e, invoke(e.handles[f], Receiver(e, self), Args(e, argv)))
    ensures Valid(Call(e, f, self, argv, invoke).engine)
  {
    if IsFunction(e, f) {
      FinishKeepsValid(e, invoke(e.handles[f], Receiver(e, self), Args(e, argv)));
    }
  }

  /** New keeps the engine consistent when the constructor leaves the heap
      consistent. */
  lemma NewKeepsValid(e: Engine, f: Handle, argv: seq<Handle>, construct: (JsVal, seq<JsVal>) -> Completion)
    requires Valid(e) && Live(e, f)
    requires IsFunction(e, f) ==> forall i | 0 <= i < |argv| :: argv[i] in e.handles
    requires IsFunction(e, f) ==> CompletionFits(e, construct(e.handles[f], Args(e, argv)))
    ensures Valid(New(e, f, argv, construct).engine)
  {
    if IsFunction(e, f) {
      FinishKeepsValid(e, construct(e.handles[f], Args(e, argv)));
    }
  }

  /** Run keeps the engine consistent when the script leaves the heap
      consistent. */
  lemma RunKeepsValid(e: Engine, code: string, filename: Option<string>,
                      evaluate: (string, string) -> Evaluation)
    requires Valid(e)
    requires |filename.GetOr(NoFile)| <= e.maxStringLength ==> |code| <= e.maxStringLength
    requires var ev := evaluate(code, filename.GetOr(NoFile)); ev.Ran? ==> CompletionFits(e, ev.completion)
    ensures Valid(Run(e, code, filename, evaluate).engine)
  {
    var name := filename.GetOr(NoFile);
    if |name| <= e.maxStringLength && evaluate(code, name).Ran? {
      FinishKeepsValid(e, evaluate(code, name).completion);
    }
  }
}

=== FILE: callback.dfy ===
/** `go_callback`: the entry point the engine calls when script code calls a
    function registered from Go. It gathers the callback id, the calling
    frame and the arguments, hands them to the Go dispatcher, and turns the
    dispatcher's reply into a throw or a return value. */
module Callback {
  import opened Wrappers
  import opened Kinds
  import opened Abi
  import opened Heap
  import opened Text

  /** One frame of the current stack trace: the converted script and function
      names, and the line and column. */
  datatype Frame = Frame(scriptName: string, functionName: string, line: int, column: int)

  /** What the callback does with its reply: throw an `Error` with a message,
      return `undefined`, or return the value the given handle holds. */
  datatype Action = Throw(message: string) | ReturnUndefined | ReturnValue(handle: Handle)

  /** The Go dispatcher, `go_callback_handler`. */
  type Dispatcher = (CBuf<char>, CallerInfo, seq<ValueTuple>) -> ValueTuple

  /** The stack trace as captured with a frame limit of 1: the innermost
      frame of the script's call stack `stack` (innermost first), if any. */
  function Captured(stack: seq<Frame>): (t: seq<Frame>)
    ensures |t| <= 1 && t <= stack
    ensures |t| == 1 <==> |stack| > 0
  {
    if |stack| == 0 then [] else [stack[0]]
  }

  /** The caller description: filled in from the frame when the captured
      trace has exactly one, otherwise empty names and zeroes. So it
      describes the innermost frame of any non-empty call stack. */
  function CallerOf(stack: seq<Frame>): (c: CallerInfo)
    ensures c.funcname.WellShaped() && c.filename.WellShaped()
    ensures |stack| == 0 ==> c == CallerInfo(Dup(""), Dup(""), 0, 0)
    ensures |stack| > 0 ==>
              && Contents(c.funcname) == Str(stack[0].functionName)
              && Contents(c.filename) == Str(stack[0].scriptName)
              && c.line == stack[0].line && c.column == stack[0].column
  {
    var trace := Captured(stack);
    if |trace| == 1 then
      var f := trace[0];
      CallerInfo(Dup(Str(f.functionName)), Dup(Str(f.scriptName)), f.line, f.column)
    else CallerInfo(Dup(""), Dup(""), 0, 0)
  }

  /** The loop that wraps every argument in a new persistent handle, paired
      with its kind mask and a null error. */
  method WrapArgs(e: Engine, args: seq<JsVal>) returns (e': Engine, argv: seq<ValueTuple>)
    ensures |argv| == |args|
    ensures forall i | 0 <= i < |args| ::
              argv[i] == ValueTuple(Some(e.nextHandle + i), MaskOfValue(e, args[i]), NoError)
    ensures forall h | e.nextHandle <= h < e.nextHandle + |args| :: h in e'.handles && e'.handles[h] == args[h - e.nextHandle]
    ensures forall h | h in e.handles && h < e.nextHandle :: h in e'.handles && e'.handles[h] == e.handles[h]
    ensures e'.objs == e.objs && e'.nextHandle == e.nextHandle + |args|
  {
    e' := e;
    argv := [];
    var i := 0;
    while i < |args|
      invariant 0 <= i <= |args|
      invariant |argv| == i
      invariant e'.objs == e.objs && e'.nextHandle == e.nextHandle + i
      invariant forall j | 0 <= j < i ::
                  argv[j] == ValueTuple(Some(e.nextHandle + j), MaskOfValue(e, args[j]), NoError)
      invariant forall h | e.nextHandle <= h < e.nextHandle + i :: h in e'.handles && e'.handles[h] == args[h - e.nextHandle]
      invariant forall h | h in e.handles && h < e.nextHandle :: h in e'.handles && e'.handles[h] == e.handles[h]
    {
      ghost var before := e';
      var (next, h) := NewHandle(e', args[i]);
      assert h == e.nextHandle + i && next.handles == before.handles[h := args[i]];
      e' := next;
      argv := argv + [ValueTuple(Some(h), MaskOfValue(e, args[i]), NoError)];
      i := i + 1;
    }
  }

  /** What the callback does with the dispatcher's reply. An error (non-null
      message pointer) is thrown and wins over any value; otherwise a null
      value returns `undefined` and a handle returns its value. */
  function Respond(result: ValueTuple): (a: Action)
    requires result.error.WellShaped()
    ensures a.Throw? <==> result.error.ptr.Some?
    ensures a.Throw? ==> a.message == Contents(result.error)
    ensures a == ReturnUndefined <==> result.error.ptr.None? && result.value.None?
    ensures a.ReturnValue? ==> result.value == Some(a.handle)
  {
    if result.error.ptr.Some? then Throw(Contents(result.error))
    else if result.value.None? then ReturnUndefined
    else ReturnValue(result.value.value)
  }

  /** `go_callback`, for an installed dispatcher: the id is the converted
      callback data, the caller is the innermost frame of the call stack, the
      arguments are wrapped in order, and the reply decides the action. */
  method GoCallback(e: Engine, handler: Option<Dispatcher>, data: string, stack: seq<Frame>, args: seq<JsVal>)
      returns (e': Engine, argv: seq<ValueTuple>, action: Action)
    requires handler.Some?
    requires forall id, info, av :: handler.value(id, info, av).error.WellShaped()
    ensures |argv| == |args|
    ensures forall i | 0 <= i < |args| ::
              && argv[i].value == Some(e.nextHandle + i)
              && e.nextHandle + i in e'.handles
              && e'.handles[e.nextHandle + i] == args[i]
              && argv[i].kinds == MaskOfValue(e, args[i])
    ensures action == Respond(handler.value(Dup(Str(data)), CallerOf(stack), argv))
    ensures e'.objs == e.objs
  {
    var id := Dup(Str(data));
    var caller := CallerOf(stack);
    e', argv := WrapArgs(e, args);
    var result := handler.value(id, caller, argv);
    action := Respond(result);
  }

  /** The kind mask handed to Go with each argument lists exactly the
      category tests that hold for it. */
  lemma ArgumentKinds(e: Engine, args: seq<JsVal>, argv: seq<ValueTuple>, i: nat, k: Kind)
    requires |argv| == |args| && i < |args|
    requires argv[i].kinds == MaskOfValue(e, args[i])
    ensures argv[i].kinds & Bit(k) != 0 <==> k in KindsOf(e, args[i])
  {
    KindsFromLocalBit(KindsOf(e, args[i]), k);
  }
}

=== FILE: diagnostics.dfy ===
/** `report_exception`: the diagnostic text the bridge builds from a caught
    exception, its optional message (script location, source line, column
    span) and its optional stack trace. */
module Diagnostics {
  import opened Wrappers
  import opened Text

  /** The parts of a `v8::Message` the formatter reads. `resourceName` is
      `None` when the script resource name is `undefined`; every other text
      is the engine's UTF-8 conversion, before `str` is applied. */
  datatype Message = Message(
    resourceName: Option<string>,
    lineNumber: Option<int>,
    startColumn: Option<int>,
    endColumn: Option<int>,
    sourceLine: Option<string>)

  /** What a `v8::TryCatch` holds after an exception was caught: the converted
      exception value, the message if there is one, and the stack trace if
      there is one. */
  datatype Caught = Caught(exception: string, message: Option<Message>, stackTrace: Option<string>)

  const Header := "Uncaught exception: "
  const AtPrefix := "\nat "
  const Indent := "\n  "
  const TracePrefix := "\nStack trace: "

  /** The underline of the failing span: `start` spaces, then one '^' for
      each column from `start` up to `end`. Neither loop of the formatter runs
      for a negative count. */
  function CaretLine(start: int, end: int): (r: string)
    ensures |r| == |Indent| + Max0(start) + Max0(end - start)
  {
    Indent + Repeat(' ', Max0(start)) + Repeat('^', Max0(end - start))
  }

  /** The underline is the indent, then exactly `start` spaces (none for a
      negative start), then exactly `end - start` carets (none when the span
      is empty or reversed). */
  lemma CaretLineShape(start: int, end: int)
    ensures var r := CaretLine(start, end);
            && r[..|Indent|] == Indent
            && (forall i | |Indent| <= i < |Indent| + Max0(start) :: r[i] == ' ')
            && (forall i | |Indent| + Max0(start) <= i < |r| :: r[i] == '^')
  {
    var spaces, carets := Repeat(' ', Max0(start)), Repeat('^', Max0(end - start));
    var r := CaretLine(start, end);
    assert r == Indent + spaces + carets;
    forall i | |Indent| <= i < |Indent| + Max0(start) ensures r[i] == ' ' {
      assert r[i] == spaces[i - |Indent|];
    }
    forall i | |Indent| + Max0(start) <= i < |r| ensures r[i] == '^' {
      assert r[i] == carets[i - |Indent| - Max0(start)];
    }
  }

  function Max0(n: int): nat {
    if n < 0 then 0 else n
  }

  /** ":" and the number, when the number is known. */
  function Suffix(n: Option<int>): string {
    match n
    case Some(v) => ":" + IntToString(v)
    case None => ""
  }

  /** "\nat <name>", then ":<line>" and ":<start>" for the known numbers. */
  function Position(name: string, m: Message): string {
    AtPrefix + Str(name) + Suffix(m.lineNumber) + Suffix(m.startColumn)
  }

  /** The indented source line, when there is one. */
  function SourceLine(m: Message): string {
    match m.sourceLine
    case Some(line) => Indent + Str(line)
    case None => ""
  }

  /** The underline, when both columns are known. */
  function Underline(m: Message): string {
    if m.startColumn.Some? && m.endColumn.Some?
    then CaretLine(m.startColumn.value, m.endColumn.value)
    else ""
  }

  /** The location block: written only for a message whose resource name is
      not `undefined`. */
  function Location(message: Option<Message>): string {
    match message
    case None => ""
    case Some(m) =>
      match m.resourceName
      case None => ""
      case Some(name) => Position(name, m) + SourceLine(m) + Underline(m)
  }

  /** The stack-trace block, written whenever a stack trace exists. */
  function Trace(stackTrace: Option<string>): string {
    match stackTrace
    case Some(t) => TracePrefix + Str(t)
    case None => ""
  }

  /** The whole diagnostic; it always begins with the header and the
      converted exception text, whatever else is known. */
  function ReportException(c: Caught): (r: string)
    ensures |r| >= |Header| + |Str(c.exception)|
    ensures r[..|Header| + |Str(c.exception)|] == Header + Str(c.exception)
  {
    var head := Header + Str(c.exception);
    Assoc(head, Location(c.message), Trace(c.stackTrace));
    PrefixOfConcat(head, Location(c.message) + Trace(c.stackTrace));
    Header + Str(c.exception) + Location(c.message) + Trace(c.stackTrace)
  }

  /** Appends one `c` per step of `for (i = from; i < to; i++)`. */
  method AppendRun(ss0: string, c: char, from: int, to: int) returns (ss: string)
    ensures ss == ss0 + Repeat(c, Max0(to - from))
  {
    ss := ss0;
    var i := from;
    while i < to
      invariant from <= i || to <= from
      invariant Max0(i - from) <= Max0(to - from)
      invariant ss == ss0 + Repeat(c, Max0(i - from))
    {
      ss := ss + [c];
      i := i + 1;
    }
  }

  /** Concatenation regroups freely. */
  lemma Assoc(a: string, b: string, c: string)
    ensures (a + b) + c == a + (b + c)
  {
  }

  /** A string is the prefix of itself followed by anything. */
  lemma PrefixOfConcat(a: string, b: string)
    ensures (a + b)[..|a|] == a
  {
  }

  /** A string is the suffix of anything followed by it. */
  lemma SuffixOfConcat(a: string, b: string)
    ensures (a + b)[|a + b| - |b|..] == b
  {
  }

  /** The location block as the source writes it, appended to a stream that
      already holds `ss0`. */
  method LocationStream(ss0: string, name: string, m: Message) returns (ss: string)
    ensures ss == ss0 + (Position(name, m) + SourceLine(m) + Underline(m))
  {
    ghost var block := AtPrefix;
    ss := ss0 + AtPrefix;
    ss, block := AppendPiece(ss, ss0, block, Str(name));
    ss, block := AppendPiece(ss, ss0, block, Suffix(m.lineNumber));
    ss, block := AppendPiece(ss, ss0, block, Suffix(m.startColumn));
    assert block == Position(name, m);
    if m.sourceLine.Some? {
      ss, block := AppendPiece(ss, ss0, block, Indent + Str(m.sourceLine.value));
    } else {
      assert block + SourceLine(m) == block;
    }
    assert block == Position(name, m) + SourceLine(m);
    if m.startColumn.Some? && m.endColumn.Some? {
      var start, end := m.startColumn.value, m.endColumn.value;
      ghost var before := ss;
      ss := ss + Indent;
      ss := AppendRun(ss, ' ', 0, start);
      ss := AppendRun(ss, '^', start, end);
      assert ss == before + Indent + Repeat(' ', Max0(start)) + Repeat('^', Max0(end - start));
      Assoc(before + Indent, Repeat(' ', Max0(start)), Repeat('^', Max0(end - start)));
      Assoc(before, Indent, Repeat(' ', Max0(start)) + Repeat('^', Max0(end - start)));
      Assoc(Indent, Repeat(' ', Max0(start)), Repeat('^', Max0(end - start)));
      assert ss == before + CaretLine(start, end);
      Assoc(ss0, block, CaretLine(start, end));
    } else {
      assert block + Underline(m) == block;
    }
  }

  /** Appends `piece` to the stream, keeping track of what was written after
      `ss0`. */
  method AppendPiece(ss: string, ghost ss0: string, ghost block: string, piece: string)
      returns (ss': string, ghost block': string)
    requires ss == ss0 + block
    ensures ss' == ss + piece && block' == block + piece && ss' == ss0 + block'
  {
    Assoc(ss0, block, piece);
    ss' := ss + piece;
    block' := block + piece;
  }

  /** The formatter as the source writes it, appending to a stream piece by
      piece, with one loop for the spaces and one for the carets. It produces
      exactly the text described by `ReportException`. */
  method ReportExceptionStream(c: Caught) returns (ss: string)
    ensures ss == ReportException(c)
  {
    ss := Header;
    ss := ss + Str(c.exception);
    ghost var head := ss;
    if c.message.Some? && c.message.value.resourceName.Some? {
      ss := LocationStream(ss, c.message.value.resourceName.value, c.message.value);
    } else {
      assert head + Location(c.message) == head;
    }
    assert ss == head + Location(c.message);
    if c.stackTrace.Some? {
      ss := ss + (TracePrefix + Str(c.stackTrace.value));
    } else {
      assert ss + Trace(c.stackTrace) == ss;
    }
  }

  /** Without a message, or with a message whose resource name is undefined,
      no location, source line or underline is written, only the header and
      the stack-trace block. */
  lemma ReportWithoutLocation(c: Caught)
    requires c.message.None? || c.message.value.resourceName.None?
    ensures ReportException(c) == Header + Str(c.exception) + Trace(c.stackTrace)
  {
    var head := Header + Str(c.exception);
    assert head + Location(c.message) == head;
  }

  /** With a message whose resource name is defined, the location block
      "\nat <name>" follows the exception text directly, then ":<line>" only
      when the line is known and ":<start>" only when the start column is. */
  lemma ReportLocation(c: Caught, name: string)
    requires c.message.Some? && c.message.value.resourceName == Some(name)
    ensures var pre := Header + Str(c.exception) + AtPrefix + Str(name)
                       + Suffix(c.message.value.lineNumber) + Suffix(c.message.value.startColumn);
            |ReportException(c)| >= |pre| && ReportException(c)[..|pre|] == pre
  {
    var m := c.message.value;
    var head := Header + Str(c.exception);
    var pos, rest := Position(name, m), SourceLine(m) + Underline(m);
    Assoc(pos, SourceLine(m), Underline(m));
    Assoc(head, pos + rest, Trace(c.stackTrace));
    Assoc(pos, rest, Trace(c.stackTrace));
    Assoc(head, pos, rest + Trace(c.stackTrace));
    assert ReportException(c) == (head + pos) + (rest + Trace(c.stackTrace));
    PrefixOfConcat(head + pos, rest + Trace(c.stackTrace));
    Assoc(head + AtPrefix, Str(name), Suffix(m.lineNumber));
    Assoc(head, AtPrefix, Str(name));
    Assoc(head, AtPrefix + Str(name), Suffix(m.lineNumber));
    Assoc(head, AtPrefix + Str(name) + Suffix(m.lineNumber), Suffix(m.startColumn));
  }

  /** A known number prints as ":" and its decimal text, which reads back as
      the number; an unknown one prints nothing. */
  lemma SuffixRoundTrip(n: Option<int>)
    ensures n.None? <==> Suffix(n) == ""
    ensures n.Some? ==> Suffix(n)[0] == ':' && ParseInt(Suffix(n)[1..]) == n.value
  {
    if n.Some? {
      assert Suffix(n)[1..] == IntToString(n.value);
      IntToStringRoundTrip(n.value);
    }
  }

  /** When the source line and both columns are known, the location block
      ends with the source line on its own indented line, followed by the
      underline of the span, and only the stack-trace block comes after. */
  lemma ReportUnderline(c: Caught, name: string, line: string, start: int, end: int)
    requires c.message.Some?
    requires c.message.value.resourceName == Some(name)
    requires c.message.value.sourceLine == Some(line)
    requires c.message.value.startColumn == Some(start) && c.message.value.endColumn == Some(end)
    ensures var tail := Indent + Str(line) + CaretLine(start, end) + Trace(c.stackTrace);
            |ReportException(c)| >= |tail| && ReportException(c)[|ReportException(c)| - |tail|..] == tail
  {
    var m := c.message.value;
    var head := Header + Str(c.exception);
    var pos := Position(name, m);
    var sl, ul, tr := Indent + Str(line), CaretLine(start, end), Trace(c.stackTrace);
    assert Location(c.message) == pos + sl + ul;
    Assoc(pos, sl, ul);
    Assoc(head, pos + (sl + ul), tr);
    Assoc(pos, sl + ul, tr);
    Assoc(head, pos, (sl + ul) + tr);
    Assoc(sl, ul, tr);
    assert ReportException(c) == (head + pos) + (sl + ul + tr);
    SuffixOfConcat(head + pos, sl + ul + tr);
  }

  /** The stack-trace block closes the diagnostic whenever a stack trace
      exists, independently of the message. */
  lemma ReportEndsWithTrace(c: Caught, t: string)
    requires c.stackTrace == Some(t)
    ensures var tail := TracePrefix + Str(t);
            |ReportException(c)| >= |tail| && ReportException(c)[|ReportException(c)| - |tail|..] == tail
  {
    SuffixOfConcat(Header + Str(c.exception) + Location(c.message), TracePrefix + Str(t));
  }
}

=== FILE: heap.dfy ===
/** The engine as the bridge sees it: persistent handles holding values,
    and objects whose category, contents and ordinary properties the bridge
    reads and writes. Compiling and running code and calling functions are
    left to oracles supplied by the caller of each operation. Properties are
    own, writable data properties: prototypes, accessors and proxies are not
    modelled. */
module Heap {
  import opened Wrappers
  import opened Kinds
  import opened Abi
  import opened Text

  type ObjId = nat

  /** A JavaScript value. Numbers are modelled as reals (no rounding, no
      NaN); strings as their characters. */
  datatype JsVal =
    | Undefined
    | Null
    | Boolean(b: bool)
    | Number(n: real)
    | JsString(s: string)
    | Symbol(id: nat)
    | Ref(obj: ObjId)

  /** A property key: a name, or an array index (below 2^32 - 1). A key
      is only ever built through `KeyOfName` or `KeyOfIndex`, so the two
      spellings of an index never name different properties. */
  datatype PropKey = Named(name: string) | Indexed(index: nat)

  /** The largest array index plus one: 2^32 - 1 is a property name, not an
      index (section 6.1.7 of ECMA-262). */
  const MaxIndex := 0xFFFF_FFFF

  /** A canonical numeric string of an array index: decimal digits, no
      leading zero unless it is "0", and a value below 2^32 - 1. */
  predicate IsIndexName(name: string) {
    && |name| >= 1 && AllDigits(name)
    && (|name| == 1 || name[0] != '0')
    && 0 <= DigitsValue(name) < MaxIndex
  }

  /** The key a property name stands for. */
  function KeyOfName(name: string): (k: PropKey)
    ensures k.Indexed? <==> IsIndexName(name)
    ensures k.Indexed? ==> k.index == DigitsValue(name) && k.index < MaxIndex
    ensures k.Named? ==> k.name == name
  {
    if IsIndexName(name) then Indexed(DigitsValue(name)) else Named(name)
  }

  /** The key a `uint32_t` index stands for. */
  function KeyOfIndex(i: nat): (k: PropKey)
    requires i < 0x1_0000_0000
    ensures k.Indexed? <==> i < MaxIndex
    ensures k.Indexed? ==> k.index == i
    ensures k.Named? ==> k.name == NatToString(i)
  {
    if i < MaxIndex then Indexed(i) else Named(NatToString(i))
  }

  /** An index and its decimal name are the same key: writing `o["7"]` and
      reading `o[7]` meet, as they do in the engine. */
  lemma NameAndIndexAgree(i: nat)
    requires i < 0x1_0000_0000
    ensures KeyOfName(NatToString(i)) == KeyOfIndex(i)
  {
    NatToStringDigits(i);
    NatToStringRoundTrip(i);
  }

  /** `v8::Promise::PromiseState`. */
  const kPending := 0
  const kFulfilled := 1
  const kRejected := 2

  /** What kind of object it is, as far as the bridge looks inside. */
  datatype Body =
    | Plain
    | ArrayObj(length: nat)
    | ArrayBuffer(bytes: seq<Byte>)
    | TypedArray(buffer: ObjId)
    | Promise(state: int, result: JsVal)
    | Date(time: real)
    | Function

  /** An object: its body, the other category tests that hold for it (a
      map, a proxy, a particular typed-array element type, ...) and its own
      ordinary properties. */
  datatype Obj = Obj(body: Body, extraKinds: set<Kind>, props: map<PropKey, JsVal>)

  /** The persistent handles, the objects, the allocation counters, the
      context's global object and the longest string the engine will build
      (`v8::String::kMaxLength`). */
  datatype Engine = Engine(
    handles: map<Handle, JsVal>,
    objs: map<ObjId, Obj>,
    nextHandle: Handle,
    nextObj: ObjId,
    global: ObjId,
    maxStringLength: nat,
    contextAlive: bool)

  /** The categories the bridge itself tests or that follow from the body;
      the extra kinds of an object never include them. A typed array is also
      an array-buffer view; other views (a `DataView`) carry
      `kArrayBufferView` among their extra kinds. */
  function BodyKinds(b: Body): set<Kind> {
    match b
    case Plain => {}
    case ArrayObj(_) => {kArray}
    case ArrayBuffer(_) => {kArrayBuffer}
    case TypedArray(_) => {kArrayBufferView, kTypedArray}
    case Promise(_, _) => {kPromise}
    case Date(_) => {kDate}
    case Function => {kFunction}
  }

  const ReservedKinds: set<Kind> := {
    kUndefined, kNull, kName, kString, kSymbol, kBoolean, kNumber, kInt32, kUint32,
    kObject, kArray, kArrayBuffer, kTypedArray, kPromise, kDate, kFunction}

  predicate IsInt32(n: real) {
    n.Floor as real == n && -0x8000_0000 <= n.Floor < 0x8000_0000
  }

  predicate IsUint32(n: real) {
    n.Floor as real == n && 0 <= n.Floor < 0x1_0000_0000
  }

  /** The category tests that hold for a value. */
  function KindsOf(e: Engine, v: JsVal): (r: set<Kind>)
    ensures v.Ref? <==> kObject in r
  {
    match v
    case Undefined => {kUndefined}
    case Null => {kNull}
    case Boolean(_) => {kBoolean}
    case Number(n) =>
      {kNumber} + (if IsInt32(n) then {kInt32} else {}) + (if IsUint32(n) then {kUint32} else {})
    case JsString(_) => {kName, kString}
    case Symbol(_) => {kName, kSymbol}
    case Ref(o) =>
      {kObject} + if o in e.objs then BodyKinds(e.objs[o].body) + (e.objs[o].extraKinds - ReservedKinds) else {}
  }

  /** A `DataView` is an array-buffer view that is not a typed array: the
      classifier sets both `kArrayBufferView` and `kDataView` for it. */
  lemma DataViewKinds(e: Engine, o: ObjId)
    requires o in e.objs && e.objs[o].body == Plain && e.objs[o].extraKinds == {kArrayBufferView, kDataView}
    ensures KindsOf(e, Ref(o)) == {kObject, kArrayBufferView, kDataView}
    ensures kTypedArray !in KindsOf(e, Ref(o))
  {
    assert {kArrayBufferView, kDataView} - ReservedKinds == {kArrayBufferView, kDataView};
  }

  /** `v8_Value_KindsFromLocal` applied to a value of the engine. */
  function MaskOfValue(e: Engine, v: JsVal): KindMask {
    KindsFromLocal(KindsOf(e, v))
  }

  /** A handle is usable: it exists, and the object it holds (if any) does. */
  predicate Live(e: Engine, h: Handle) {
    h in e.handles && (e.handles[h].Ref? ==> e.handles[h].obj in e.objs)
  }

  predicate RefOk(e: Engine, v: JsVal) {
    v.Ref? ==> v.obj in e.objs
  }

  /** An object refers only to existing objects. */
  predicate ObjOk(e: Engine, o: Obj) {
    && (forall k | k in o.props :: RefOk(e, o.props[k]))
    && (o.body.Promise? ==> RefOk(e, o.body.result))
  }

  /** The engine's bookkeeping is consistent: counters lie above every
      allocated handle and object, the global object exists, and no handle or
      object refers to a missing object. */
  predicate Valid(e: Engine) {
    && (forall h | h in e.handles :: h < e.nextHandle && RefOk(e, e.handles[h]))
    && (forall o | o in e.objs :: o < e.nextObj && ObjOk(e, e.objs[o]))
    && e.global in e.objs
  }

  /** `new Value(isolate, v)`: a new persistent handle holding `v`. */
  function NewHandle(e: Engine, v: JsVal): (Engine, Handle) {
    (e.(handles := e.handles[e.nextHandle := v], nextHandle := e.nextHandle + 1), e.nextHandle)
  }

  /** A new handle is fresh, holds `v`, and leaves every other handle and
      every object as it was. */
  lemma NewHandleFresh(e: Engine, v: JsVal)
    requires Valid(e) && RefOk(e, v)
    ensures var (e', h) := NewHandle(e, v);
            && h !in e.handles
            && e'.handles == e.handles[h := v]
            && e'.objs == e.objs
            && Valid(e')
  {
  }

  /** A new object with the given body and no properties. */
  function NewObject(e: Engine, body: Body): (Engine, ObjId) {
    (e.(objs := e.objs[e.nextObj := Obj(body, {}, map[])], nextObj := e.nextObj + 1), e.nextObj)
  }

  /** Allocating an object keeps the engine consistent and changes no
      existing object. */
  lemma NewObjectFresh(e: Engine, body: Body)
    requires Valid(e) && !body.Promise?
    ensures var (e', o) := NewObject(e, body);
            && o !in e.objs
            && (forall p | p in e.objs :: p in e'.objs && e'.objs[p] == e.objs[p])
            && Valid(e')
  {
    var (e', o) := NewObject(e, body);
    forall h | h in e'.handles ensures h < e'.nextHandle && RefOk(e', e'.handles[h]) {
    }
    forall p | p in e'.objs ensures p < e'.nextObj && ObjOk(e', e'.objs[p]) {
      if p != o {
        assert ObjOk(e, e.objs[p]);
      }
    }
  }

  /** An ordinary property read: the own property if there is one, the
      length of an array, otherwise `undefined`. */
  function Lookup(o: Obj, key: PropKey): JsVal {
    if key in o.props then o.props[key]
    else if o.body.ArrayObj? && key == KeyOfName("length") then Number(o.body.length as real)
    else Undefined
  }

  /** An ordinary property write. */
  function Store(o: Obj, key: PropKey, v: JsVal): (r: Obj)
    ensures Lookup(r, key) == v
    ensures forall k | k != key :: Lookup(r, k) == Lookup(o, k)
    ensures r.body == o.body && r.extraKinds == o.extraKinds
  {
    o.(props := o.props[key := v])
  }
}

=== FILE: kinds.dfy ===
/** The value categories of the engine (the `Kind` enum) and the 64-bit
    `KindMask` built from them by running every category test of a value. */
module Kinds {

  /** `kNumKinds`, the enumerator that follows the last kind. */
  const NumKinds := 47

  /** A `Kind` enumerator. The enumerators are the integers 0 .. kNumKinds - 1
      in declaration order, so every kind is one bit position of a 64-bit mask
      and the bit position of a kind is its ordinal. */
  newtype Kind = k: int | 0 <= k < 47

  const kUndefined: Kind := 0
  const kNull: Kind := 1
  const kName: Kind := 2
  const kString: Kind := 3
  const kSymbol: Kind := 4
  const kFunction: Kind := 5
  const kArray: Kind := 6
  const kObject: Kind := 7
  const kBoolean: Kind := 8
  const kNumber: Kind := 9
  const kExternal: Kind := 10
  const kInt32: Kind := 11
  const kUint32: Kind := 12
  const kDate: Kind := 13
  const kArgumentsObject: Kind := 14
  const kBooleanObject: Kind := 15
  const kNumberObject: Kind := 16
  const kStringObject: Kind := 17
  const kSymbolObject: Kind := 18
  const kNativeError: Kind := 19
  const kRegExp: Kind := 20
  const kAsyncFunction: Kind := 21
  const kGeneratorFunction: Kind := 22
  const kGeneratorObject: Kind := 23
  const kPromise: Kind := 24
  const kMap: Kind := 25
  const kSet: Kind := 26
  const kMapIterator: Kind := 27
  const kSetIterator: Kind := 28
  const kWeakMap: Kind := 29
  const kWeakSet: Kind := 30
  const kArrayBuffer: Kind := 31
  const kArrayBufferView: Kind := 32
  const kTypedArray: Kind := 33
  const kUint8Array: Kind := 34
  const kUint8ClampedArray: Kind := 35
  const kInt8Array: Kind := 36
  const kUint16Array: Kind := 37
  const kInt16Array: Kind := 38
  const kUint32Array: Kind := 39
  const kInt32Array: Kind := 40
  const kFloat32Array: Kind := 41
  const kFloat64Array: Kind := 42
  const kDataView: Kind := 43
  const kSharedArrayBuffer: Kind := 44
  const kProxy: Kind := 45
  const kWebAssemblyCompiledModule: Kind := 46

  /** A 64-bit set of kinds (`uint64_t`). */
  type KindMask = bv64

  /** The kinds `lo` .. `hi` in enum order. */
  function Run(lo: Kind, hi: Kind): (r: seq<Kind>)
    requires lo <= hi
    ensures |r| == (hi - lo) as int + 1
    ensures forall i | 0 <= i < |r| :: r[i] as int == lo as int + i
  {
    seq((hi - lo) as int + 1, i requires 0 <= i <= (hi - lo) as int => (lo as int + i) as Kind)
  }

  /** The order in which the classifier runs its category tests: enum order,
      except that kObject and kArray are tested right after kSymbol (object
      first) and kFunction right after kRegExp. */
  function TestOrder(): seq<Kind> {
    Run(kUndefined, kSymbol) + [kObject, kArray] + Run(kBoolean, kRegExp)
      + [kFunction] + Run(kAsyncFunction, kWebAssemblyCompiledModule)
  }

  /** Every kind is tested, and the table has one entry per kind, so each
      kind is tested exactly once. */
  lemma TestOrderComplete(k: Kind)
    ensures k in TestOrder()
    ensures |TestOrder()| == NumKinds
  {
    var a, b, c := Run(kUndefined, kSymbol), Run(kBoolean, kRegExp), Run(kAsyncFunction, kWebAssemblyCompiledModule);
    assert TestOrder() == a + [kObject, kArray] + b + [kFunction] + c;
    if k <= kSymbol {
      assert a[k as int] == k;
    } else if k == kFunction || k == kArray || k == kObject {
    } else if k <= kRegExp {
      assert b[(k - kBoolean) as int] == k;
    } else {
      assert c[(k - kAsyncFunction) as int] == k;
    }
  }

  /** `1ULL << k`. */
  function Bit(k: Kind): KindMask {
    (1 as bv64) << (k as int)
  }

  /** `1ULL << kNumKinds`: every mask built from kinds lies below it. */
  const Limit: KindMask := 0x8000_0000_0000

  /** Every kind has its bit. */
  lemma BitSet(k: Kind)
    ensures Bit(k) != 0
  {
  }

  /** A lower kind and a higher one have disjoint bits. */
  lemma BitsApart(a: Kind, b: Kind)
    requires a < b
    ensures Bit(a) & Bit(b) == 0
  {
  }

  /** AND distributes over OR. */
  lemma AndOverOr(p: bv64, x: bv64, y: bv64)
    ensures (p | x) & y == (p & y) | (x & y)
  {
  }

  lemma AndZero(x: bv64)
    ensures 0 & x == 0
  {
  }

  lemma OrNonzero(a: bv64, b: bv64)
    ensures a | b != 0 <==> a != 0 || b != 0
  {
  }

  /** Setting a bit below kNumKinds keeps a mask below `Limit`. */
  lemma OrBelow(p: bv64, a: bv64)
    requires p < Limit && a < 47
    ensures p | ((1 as bv64) << a) < Limit
  {
  }

  /** OR-ing bit `last` into a mask adds exactly the kind `last`. */
  lemma AddBit(prefix: KindMask, last: Kind, k: Kind)
    ensures (prefix | Bit(last)) & Bit(k) != 0 <==> prefix & Bit(k) != 0 || k == last
  {
    AndOverOr(prefix, Bit(last), Bit(k));
    OrNonzero(prefix & Bit(k), Bit(last) & Bit(k));
    if k == last {
      BitSet(k);
    } else if k < last {
      BitsApart(k, last);
    } else {
      BitsApart(last, k);
    }
  }

  /** Runs the tests of `tests` in order, OR-ing in bit k whenever kind k holds,
      starting from the empty mask. */
  function MaskOf(tests: seq<Kind>, holds: set<Kind>): KindMask {
    if |tests| == 0 then 0
    else
      var prefix := MaskOf(tests[..|tests| - 1], holds);
      var last := tests[|tests| - 1];
      if last in holds then prefix | Bit(last) else prefix
  }

  /** The tests do not short-circuit: bit k of the mask is set exactly when k
      is among the tests run and its test holds, whatever else holds. */
  lemma {:induction false} MaskOfBit(tests: seq<Kind>, holds: set<Kind>, k: Kind)
    ensures MaskOf(tests, holds) & Bit(k) != 0 <==> k in tests && k in holds
  {
    if |tests| == 0 {
      AndZero(Bit(k));
    } else {
      var init, last := tests[..|tests| - 1], tests[|tests| - 1];
      assert tests == init + [last];
      MaskOfBit(init, holds, k);
      MaskOfStep(tests, holds, k);
    }
  }

  /** One test of the classifier sets bit k exactly when it is the test for
      k and that test holds; other bits are left as they were. */
  lemma MaskOfStep(tests: seq<Kind>, holds: set<Kind>, k: Kind)
    requires |tests| > 0
    ensures var init, last := tests[..|tests| - 1], tests[|tests| - 1];
            MaskOf(tests, holds) & Bit(k) != 0 <==> MaskOf(init, holds) & Bit(k) != 0 || (last == k && k in holds)
  {
    AddBit(MaskOf(tests[..|tests| - 1], holds), tests[|tests| - 1], k);
  }

  /** A mask built from kinds never has a bit at or above kNumKinds. */
  lemma {:induction false} MaskOfBelow(tests: seq<Kind>, holds: set<Kind>)
    ensures MaskOf(tests, holds) < Limit
  {
    if |tests| > 0 {
      MaskOfBelow(tests[..|tests| - 1], holds);
      OrBelow(MaskOf(tests[..|tests| - 1], holds), tests[|tests| - 1] as bv64);
    }
  }

  /** `v8_Value_KindsFromLocal`: the mask of a value whose category tests hold
      exactly for the kinds of `holds`. */
  function KindsFromLocal(holds: set<Kind>): (m: KindMask)
    ensures m < Limit
  {
    MaskOfBelow(TestOrder(), holds);
    MaskOf(TestOrder(), holds)
  }

  /** Bit k of the classifier mask is set iff test k holds, and no bit at or
      above kNumKinds is ever set. */
  lemma KindsFromLocalBit(holds: set<Kind>, k: Kind)
    ensures KindsFromLocal(holds) & Bit(k) != 0 <==> k in holds
    ensures KindsFromLocal(holds) < Limit
  {
    var tests := TestOrder();
    TestOrderComplete(k);
    assert k in tests;
    MaskOfBit(tests, holds, k);
    MaskOfBelow(tests, holds);
  }

  /** Different sets of kinds give different masks: a receiver that tests
      the bits of a mask recovers exactly the kinds that held. */
  lemma MaskInjective(s: set<Kind>, t: set<Kind>)
    ensures KindsFromLocal(s) == KindsFromLocal(t) <==> s == t
  {
    if s != t {
      var k :| (k in s && k !in t) || (k in t && k !in s);
      if k in s {
        MaskSeparates(s, t, k);
      } else {
        MaskSeparates(t, s, k);
      }
    }
  }

  /** A kind in one set and not the other sets a bit in one mask only. */
  lemma MaskSeparates(s: set<Kind>, t: set<Kind>, k: Kind)
    requires k in s && k !in t
    ensures KindsFromLocal(s) != KindsFromLocal(t)
  {
    KindsFromLocalBit(s, k);
    KindsFromLocalBit(t, k);
  }
}

=== FILE: readinto.dfy ===
/** The Go-side decoder `readInto`: it reads a script value into a Go
    variable, directed by the variable's type. The destination type is a
    `GoType`, the variable's contents a `GoVal`, and the script value a
    `JsNode` that carries what the decoder asks of it (its kinds, its
    scalar conversions, its properties, its elements and its key list). */
module ReadInto {
  import opened Wrappers
  import opened Kinds
  import opened Text

  /** The width of a sized Go integer type. `int` and `uint` are 64 bits
      wide (a 64-bit platform). */
  datatype Width = W8 | W16 | W32 | W64

  function Modulus(w: Width): (m: int)
    ensures m >= 256 && m % 2 == 0
  {
    match w
    case W8 => 0x100
    case W16 => 0x1_0000
    case W32 => 0x1_0000_0000
    case W64 => 0x1_0000_0000_0000_0000
  }

  /** A struct field: its Go name, the value of its `json` tag, whether it
      is embedded, whether it is exported, and its type. */
  datatype Field = Field(name: string, jsonTag: string, anonymous: bool, exported: bool, typ: GoType)

  /** A Go type, by its `reflect.Kind`. `Defined` is a named type declared
      over an underlying type (`type Celsius float64`). */
  datatype GoType =
    | Invalid
    | Bool
    | Int(width: Width)
    | Uint(width: Width)
    | Uintptr
    | Float32
    | Float64
    | Complex64
    | Complex128
    | ArrayOf(length: nat, elem: GoType)
    | Chan
    | Func
    | Interface
    | MapOf(key: GoType, elem: GoType)
    | Ptr(target: GoType)
    | SliceOf(elem: GoType)
    | StringKind
    | StructOf(fields: seq<Field>)
    | UnsafePointer
    | Defined(underlying: GoType)

  /** A Go value. Floating-point values are reals; `VOpaque` stands for a
      non-nil value the decoder never looks into (a channel, a function,
      a pointer, an interface's contents). */
  datatype GoVal =
    | VNil
    | VOpaque(id: nat)
    | VBool(b: bool)
    | VInt(i: int)
    | VFloat(f: real)
    | VComplex(re: real, im: real)
    | VString(s: string)
    | VArray(elems: seq<GoVal>)
    | VMap(entries: map<string, GoVal>)
    | VSlice(elems: seq<GoVal>)
    | VStruct(fields: seq<GoVal>)

  /** The outcome of a call into the engine that may fail with an error. */
  datatype Outcome<T> = Got(value: T) | Failed(err: string)

  /** A Go `int64`. */
  type Int64 = x: int | -0x8000_0000_0000_0000 <= x < 0x8000_0000_0000_0000

  /** A script value as the decoder sees it: the category tests that hold
      for it, what `Bool()`, `Int64()`, `Float64()` and `String()` return,
      the outcome of `Get` for the property names it answers, what
      `GetIndex` returns for each index, and what `GetObjKeys` returns. */
  datatype JsNode = JsNode(
    kinds: set<Kind>,
    boolean: bool,
    int64: Int64,
    float64: real,
    text: string,
    props: seq<Prop>,
    items: seq<JsNode>,
    keys: Outcome<seq<string>>)

  datatype Prop = Prop(name: string, got: Outcome<JsNode>)

  /** The value `Get` returns for a property the object does not have. */
  const UndefinedNode := JsNode({kUndefined}, false, 0, 0.0, "", [], [], Got([]))

  /** `value.Get(name)`: the first answer listed for the name, `undefined`
      when none is. */
  function Get(node: JsNode, name: string): (r: Outcome<JsNode>) {
    Find(node.props, name)
  }

  function Find(ps: seq<Prop>, name: string): (r: Outcome<JsNode>)
    ensures (forall i | 0 <= i < |ps| :: ps[i].name != name) ==> r == Got(UndefinedNode)
    ensures (exists i | 0 <= i < |ps| :: ps[i].name == name) ==> exists i | 0 <= i < |ps| :: ps[i].name == name && r == ps[i].got
  {
    if |ps| == 0 then Got(UndefinedNode)
    else if ps[0].name == name then ps[0].got
    else Find(ps[1..], name)
  }

  /** `value.GetIndex(i)`: element `i`, `undefined` beyond the listed ones. */
  function Item(node: JsNode, i: nat): JsNode {
    if i < |node.items| then node.items[i] else UndefinedNode
  }

  /** The outcome of decoding: the destination variable as the decoder
      leaves it, and how it ended. `Panic` is a Go run-time panic. */
  datatype Status = Ok | Err(msg: string) | Panic
  datatype Res = Res(dst: GoVal, status: Status)

  /** Go's integer conversion to a signed type of width `w`: the unique
      value in range that is congruent to `x`. */
  function Signed(x: int, w: Width): (r: int)
    ensures -Modulus(w) / 2 <= r < Modulus(w) / 2
    ensures (x - r) % Modulus(w) == 0
  {
    var m := Modulus(w);
    assert x == (x / m) * m + x % m;
    var u := x % m;
    if u >= m / 2 then
      assert x - (u - m) == (x / m + 1) * m;
      u - m
    else u
  }

  /** Go's integer conversion to an unsigned type of width `w`. */
  function Unsigned(x: int, w: Width): (r: int)
    ensures 0 <= r < Modulus(w)
    ensures (x - r) % Modulus(w) == 0
  {
    var m := Modulus(w);
    assert x == (x / m) * m + x % m;
    x % m
  }

  /** A value already in range is left as it is. */
  lemma ConversionKeepsInRange(x: int, w: Width)
    ensures -Modulus(w) / 2 <= x < Modulus(w) / 2 ==> Signed(x, w) == x
    ensures 0 <= x < Modulus(w) ==> Unsigned(x, w) == x
  {
    var m := Modulus(w);
    if 0 <= x < m {
      assert x / m == 0;
    } else if -m / 2 <= x < 0 {
      assert x / m == -1;
      assert x % m == x + m;
    }
  }

  /** The kind the decoder switches on: a defined type has its underlying
      type's kind. */
  function Underlying(t: GoType): (u: GoType)
    ensures !u.Defined?
  {
    if t.Defined? then Underlying(t.underlying) else t
  }

  /** The kinds whose decoding stores a freshly converted scalar with
      `Set`, which needs the destination type to be the predeclared one. */
  predicate StoresScalar(t: GoType) {
    t.Bool? || t.Int? || t.Uint? || t.Float32? || t.Float64? || t.StringKind?
  }

  /** `v` is a value of type `t`. */
  predicate HasType(v: GoVal, t: GoType)
    decreases t
  {
    match t
    case Invalid => v.VNil?
    case Bool => v.VBool?
    case Int(w) => v.VInt? && -Modulus(w) / 2 <= v.i < Modulus(w) / 2
    case Uint(w) => v.VInt? && 0 <= v.i < Modulus(w)
    case Uintptr => v.VInt? && 0 <= v.i < Modulus(W64)
    case Float32 => v.VFloat?
    case Float64 => v.VFloat?
    case Complex64 => v.VComplex?
    case Complex128 => v.VComplex?
    case ArrayOf(n, e) => v.VArray? && |v.elems| == n && forall i | 0 <= i < n :: HasType(v.elems[i], e)
    case Chan => v.VNil? || v.VOpaque?
    case Func => v.VNil? || v.VOpaque?
    case Interface => v.VNil? || v.VOpaque?
    case MapOf(_, e) => v.VNil? || (v.VMap? && forall k | k in v.entries :: HasType(v.entries[k], e))
    case Ptr(_) => v.VNil? || v.VOpaque?
    case SliceOf(e) => v.VNil? || (v.VSlice? && forall i | 0 <= i < |v.elems| :: HasType(v.elems[i], e))
    case StringKind => v.VString?
    case StructOf(fs) =>
      v.VStruct? && |v.fields| == |fs| && forall i | 0 <= i < |fs| :: HasType(v.fields[i], fs[i].typ)
    case UnsafePointer => v.VNil? || v.VOpaque?
    case Defined(u) => HasType(v, u)
  }

  /** `reflect.Zero(t)`. */
  function Zero(t: GoType): GoVal
    decreases t
  {
    match t
    case Invalid => VNil
    case Bool => VBool(false)
    case Int(_) => VInt(0)
    case Uint(_) => VInt(0)
    case Uintptr => VInt(0)
    case Float32 => VFloat(0.0)
    case Float64 => VFloat(0.0)
    case Complex64 => VComplex(0.0, 0.0)
    case Complex128 => VComplex(0.0, 0.0)
    case ArrayOf(n, e) => VArray(seq(n, _ => Zero(e)))
    case StringKind => VString("")
    case StructOf(fs) => VStruct(seq(|fs|, i requires 0 <= i < |fs| => Zero(fs[i].typ)))
    case Defined(u) => Zero(u)
    case _ => VNil
  }

  /** The zero value of a type has that type. */
  lemma {:induction false} ZeroTyped(t: GoType)
    ensures HasType(Zero(t), t)
    decreases t
  {
    match t
    case ArrayOf(n, e) =>
      ZeroTyped(e);
    case StructOf(fs) =>
      forall i | 0 <= i < |fs| ensures HasType(Zero(t).fields[i], fs[i].typ) {
        ZeroTyped(fs[i].typ);
      }
    case Defined(u) =>
      ZeroTyped(u);
    case _ =>
  }

  /** `getReadIntoError`: the bare message at the top level, otherwise
      prefixed with the dotted path to the value being read. The prefix
      appears exactly when there is a path, and the message always ends the
      error text. */
  function Fail(msg: string, path: seq<string>): (r: string)
    ensures r == msg <==> |path| == 0
    ensures |r| >= |msg| && r[|r| - |msg|..] == msg
    ensures |path| > 0 ==>
              && |r| == |FailPrefix| + |Join(path, ".")| + 2 + |msg|
              && r[..|FailPrefix|] == FailPrefix
              && r[|FailPrefix|..|FailPrefix| + |Join(path, ".")|] == Join(path, ".")
              && r[|FailPrefix| + |Join(path, ".")|..|r| - |msg|] == ": "
  {
    if |path| == 0 then msg
    else
      var r := FailPrefix + Join(path, ".") + ": " + msg;
      assert r == FailPrefix + (Join(path, ".") + (": " + msg));
      r
  }

  const FailPrefix := "error reading value into "

  function DepthMessage(maxDepth: int): string {
    "max depth of " + IntToString(maxDepth) + " exceeded"
  }

  /** The depth message names the bound, which can be read back from it. */
  lemma DepthMessageNamesBound(maxDepth: int)
    ensures var m := DepthMessage(maxDepth);
            ParseInt(m[|"max depth of "|..|m| - |" exceeded"|]) == maxDepth
  {
    var m := DepthMessage(maxDepth);
    assert m[|"max depth of "|..|m| - |" exceeded"|] == IntToString(maxDepth);
    IntToStringRoundTrip(maxDepth);
  }

  /** The key a field is read from: the `json` tag up to its first comma,
      or the field's name when that part is empty. */
  function JsonName(f: Field): (r: string)
    ensures r == f.name || (|r| > 0 && r <= f.jsonTag && ',' !in r)
  {
    var head := BeforeComma(f.jsonTag);
    if head == "" then f.name else head
  }

  /** The text before the first comma, or all of it when there is none. */
  function BeforeComma(s: string): (r: string)
    ensures r <= s && ',' !in r
    ensures |r| < |s| ==> s[|r|] == ','
  {
    if |s| == 0 || s[0] == ',' then ""
    else [s[0]] + BeforeComma(s[1..])
  }

  /** A tag `name,options` names the key `name`; a tag that is empty or
      only options leaves the field's own name. */
  lemma JsonNameOfTag(f: Field, name: string, options: string)
    requires ',' !in name
    ensures f.jsonTag == name + "," + options ==> JsonName(f) == (if name == "" then f.name else name)
    ensures f.jsonTag == name ==> JsonName(f) == (if name == "" then f.name else name)
  {
    if f.jsonTag == name + "," + options {
      assert f.jsonTag == name + ("," + options);
      BeforeCommaOf(name, "," + options);
    }
    if f.jsonTag == name {
      BeforeCommaOf(name, "");
    }
  }

  lemma {:induction false} BeforeCommaOf(name: string, rest: string)
    requires ',' !in name
    requires rest == "" || rest[0] == ','
    ensures BeforeComma(name + rest) == name
  {
    if |name| > 0 {
      assert (name + rest)[1..] == name[1..] + rest;
      BeforeCommaOf(name[1..], rest);
    } else {
      assert name + rest == rest;
    }
  }

  /** Go's `string(i)` for an element index: the one-character string of
      code point `i`, or U+FFFD when `i` is not a valid code point. */
  function RuneString(i: nat): (r: string)
    ensures |r| == 1
    ensures (i < 0xD800 || 0xE000 <= i < 0x11_0000) ==> r[0] as int == i
    ensures !(i < 0xD800 || 0xE000 <= i < 0x11_0000) ==> r[0] == '�'
  {
    if i < 0xD800 || 0xE000 <= i < 0x11_0000 then [i as char] else ['�']
  }

  predicate IsNullish(node: JsNode) {
    kUndefined in node.kinds || kNull in node.kinds
  }

  /** `readInto` for a destination of type `t` currently holding `dst`. */
  function ReadValue(t: GoType, dst: GoVal, node: JsNode, path: seq<string>, maxDepth: int): (r: Res)
    requires HasType(dst, t)
    ensures HasType(r.dst, t)
    decreases t, 3, 0
  {
    if |path| > maxDepth then Res(dst, Err(DepthMessage(maxDepth)))
    else if IsNullish(node) then ZeroTyped(t); Res(Zero(t), Ok)
    else
      match t
      case Invalid => Res(dst, Err(Fail("invalid variable kind", path)))
      case Bool => Res(VBool(node.boolean), Ok)
      case Int(w) => Res(VInt(Signed(node.int64, w)), Ok)
      case Uint(w) => Res(VInt(Unsigned(node.int64, w)), Ok)
      case Uintptr => Res(dst, Err(Fail("uintptr not supported", path)))
      case Float32 => Res(VFloat(node.float64), Ok)
      case Float64 => Res(VFloat(node.float64), Ok)
      case Complex64 => Res(dst, Err(Fail("complex not supported", path)))
      case Complex128 => Res(dst, Err(Fail("complex not supported", path)))
      case ArrayOf(_, _) => Res(dst, Ok)
      case Chan => Res(dst, Err(Fail("chan not supported", path)))
      case Func => Res(dst, Err(Fail("func not supported", path)))
      case Interface => Res(dst, Err(Fail("interface not supported", path)))
      case MapOf(_, _) => ReadMap(t, dst, node, path, maxDepth)
      case Ptr(_) => Res(dst, Err(Fail("pointer not supported", path)))
      case SliceOf(_) => ReadSlice(t, dst, node, path, maxDepth)
      case StringKind => Res(VString(node.text), Ok)
      case StructOf(_) => ReadStruct(t, dst, node, path, maxDepth)
      case UnsafePointer => Res(dst, Err(Fail("unsafe pointer not supported", path)))
      case Defined(u) =>
        // A converted scalar has the predeclared type, which `Set` cannot
        // store into a variable of a defined type.
        if StoresScalar(u) then Res(dst, Panic) else ReadValue(u, dst, node, path, maxDepth)
  }

  /** The map case: a new map holding every listed key, stored only when
      all entries decode. */
  function ReadMap(t: GoType, dst: GoVal, node: JsNode, path: seq<string>, maxDepth: int): (r: Res)
    requires t.MapOf? && HasType(dst, t)
    ensures HasType(r.dst, t)
    ensures !r.status.Ok? ==> r.dst == dst
    decreases t, 2, 0
  {
    if kObject !in node.kinds then Res(dst, Err(Fail("value to be read into a map is not an object", path)))
    else if !Underlying(t.key).StringKind? then Res(dst, Err(Fail("only string type keys are supported for maps", path)))
    else match node.keys
      case Failed(err) => Res(dst, Err(err))
      case Got(keys) =>
        var r := ReadEntries(t, node, keys, 0, map[], path, maxDepth);
        if r.status.Ok? then r else Res(dst, r.status)
  }

  /** The loop over the listed keys from index `i`, with the entries read
      so far in `acc`. */
  function ReadEntries(t: GoType, node: JsNode, keys: seq<string>, i: nat, acc: map<string, GoVal>,
                       path: seq<string>, maxDepth: int): (r: Res)
    requires t.MapOf? && i <= |keys|
    requires forall k | k in acc :: HasType(acc[k], t.elem)
    ensures r.dst.VMap? && forall k | k in r.dst.entries :: HasType(r.dst.entries[k], t.elem)
    decreases t, 1, |keys| - i
  {
    if i == |keys| then Res(VMap(acc), Ok)
    else
      var entry := ReadEntry(t, node, keys[i], path, maxDepth);
      if !entry.status.Ok? then Res(VMap(acc), entry.status)
      // The key is a plain `string`, which `SetMapIndex` cannot store
      // under a key of a defined type.
      else if t.key.Defined? then Res(VMap(acc), Panic)
      else ReadEntries(t, node, keys, i + 1, acc[keys[i] := entry.dst], path, maxDepth)
  }

  /** One iteration of the key loop: the property named `key`, read into a
      fresh zero element with the key appended to the path. */
  function ReadEntry(t: GoType, node: JsNode, key: string, path: seq<string>, maxDepth: int): (r: Res)
    requires t.MapOf?
    ensures HasType(r.dst, t.elem)
    decreases t, 0, 0
  {
    ZeroTyped(t.elem);
    match Get(node, key)
    case Failed(err) => Res(Zero(t.elem), Err(err))
    case Got(child) => ReadValue(t.elem, Zero(t.elem), child, path + [key], maxDepth)
  }

  /** The slice case: a new slice of `length` elements, element `i` read
      from index `i`, stored only when all elements decode. */
  function ReadSlice(t: GoType, dst: GoVal, node: JsNode, path: seq<string>, maxDepth: int): (r: Res)
    requires t.SliceOf? && HasType(dst, t)
    ensures HasType(r.dst, t)
    ensures !r.status.Ok? ==> r.dst == dst
    decreases t, 2, 0
  {
    if kArray !in node.kinds && kObject !in node.kinds then
      Res(dst, Err(Fail("value to be read into a slice is not an array or object", path)))
    else match Get(node, "length")
      case Failed(err) => Res(dst, Err(err))
      case Got(lengthNode) =>
        // `reflect.MakeSlice` panics on a negative length.
        if lengthNode.int64 < 0 then Res(dst, Panic)
        else
          var r := ReadElems(t, node, lengthNode.int64, 0, [], path, maxDepth);
          if r.status.Ok? then r else Res(dst, r.status)
  }

  /** The loop over the indexes from `i` to `length`, with the elements
      read so far in `acc`. */
  function ReadElems(t: GoType, node: JsNode, length: nat, i: nat, acc: seq<GoVal>,
                     path: seq<string>, maxDepth: int): (r: Res)
    requires t.SliceOf? && i <= length
    requires forall j | 0 <= j < |acc| :: HasType(acc[j], t.elem)
    ensures r.dst.VSlice? && forall j | 0 <= j < |r.dst.elems| :: HasType(r.dst.elems[j], t.elem)
    decreases t, 1, length - i
  {
    if i == length then Res(VSlice(acc), Ok)
    else
      var elem := ReadElem(t, node, i, path, maxDepth);
      if !elem.status.Ok? then Res(VSlice(acc), elem.status)
      else ReadElems(t, node, length, i + 1, acc + [elem.dst], path, maxDepth)
  }

  /** One iteration of the index loop: element `i`, read into a fresh zero
      element with `string(i)` appended to the path. The error `GetIndex`
      may report is ignored, as in the loop itself. */
  function ReadElem(t: GoType, node: JsNode, i: nat, path: seq<string>, maxDepth: int): (r: Res)
    requires t.SliceOf?
    ensures HasType(r.dst, t.elem)
    decreases t, 0, 0
  {
    ZeroTyped(t.elem);
    ReadValue(t.elem, Zero(t.elem), Item(node, i), path + [RuneString(i)], maxDepth)
  }

  /** The struct case: the fields are decoded in place, in order, so a
      failure leaves the fields before it decoded. */
  function ReadStruct(t: GoType, dst: GoVal, node: JsNode, path: seq<string>, maxDepth: int): (r: Res)
    requires t.StructOf? && HasType(dst, t)
    ensures HasType(r.dst, t)
    decreases t, 2, 0
  {
    if kObject !in node.kinds then Res(dst, Err(Fail("value to be read into a map is not an object", path)))
    else ReadFields(t, dst.fields, node, 0, path, maxDepth)
  }

  /** The loop over the fields from index `i`, on the field values `vals`. */
  function ReadFields(t: GoType, vals: seq<GoVal>, node: JsNode, i: nat, path: seq<string>, maxDepth: int): (r: Res)
    requires t.StructOf? && i <= |t.fields| && HasType(VStruct(vals), t)
    ensures HasType(r.dst, t)
    decreases t, 1, |t.fields| - i
  {
    if i == |t.fields| then Res(VStruct(vals), Ok)
    else
      var field := ReadField(t, vals[i], node, i, path, maxDepth);
      var vals' := vals[i := field.dst];
      if !field.status.Ok? then Res(VStruct(vals'), field.status)
      else ReadFields(t, vals', node, i + 1, path, maxDepth)
  }

  /** One iteration of the field loop: field `i`, currently `v`. An
      embedded field is read from the struct's own value at the struct's
      path; any other field from the property its JSON name selects, one
      level deeper. */
  function ReadField(t: GoType, v: GoVal, node: JsNode, i: nat, path: seq<string>, maxDepth: int): (r: Res)
    requires t.StructOf? && i < |t.fields| && HasType(v, t.fields[i].typ)
    ensures HasType(r.dst, t.fields[i].typ)
    decreases t, 0, 0
  {
    var f := t.fields[i];
    if f.anonymous then
      // Taking the address of an unexported field's value for the
      // recursive call panics in `reflect`.
      if !f.exported then Res(v, Panic)
      else ReadValue(f.typ, v, node, path, maxDepth)
    else match Get(node, JsonName(f))
      case Failed(err) => Res(v, Err(err))
      case Got(child) =>
        if !f.exported then Res(v, Panic)
        else ReadValue(f.typ, v, child, path + [f.name], maxDepth)
  }

  /** What `ReadInto` is handed: whether it is a pointer, and the type and
      contents of the variable it points to (or of the value itself). */
  datatype Target = Target(pointer: bool, t: GoType, v: GoVal)

  /** `ReadInto`: starts from an empty path whose capacity is the depth
      bound, so a negative bound panics. */
  function Read(target: Target, node: JsNode, maxDepth: int): (r: Res)
    requires HasType(target.v, target.t)
    ensures HasType(r.dst, target.t)
    ensures maxDepth < 0 ==> r == Res(target.v, Panic)
    ensures !target.pointer ==> r.dst == target.v && !r.status.Ok?
  {
    if maxDepth < 0 then Res(target.v, Panic)
    else if !target.pointer then Res(target.v, Err("dst is not a pointer"))
    else ReadValue(target.t, target.v, node, [], maxDepth)
  }

  /** The depth bound is tested before anything else, and its error is
      not prefixed with the path. */
  lemma DepthCheckedFirst(t: GoType, dst: GoVal, node: JsNode, path: seq<string>, maxDepth: int)
    requires HasType(dst, t) && |path| > maxDepth
    ensures ReadValue(t, dst, node, path, maxDepth) == Res(dst, Err(DepthMessage(maxDepth)))
  {
  }

  /** Undefined and null store the zero value, whatever the type. */
  lemma NullishGivesZero(t: GoType, dst: GoVal, node: JsNode, path: seq<string>, maxDepth: int)
    requires HasType(dst, t) && |path| <= maxDepth && IsNullish(node)
    ensures ReadValue(t, dst, node, path, maxDepth) == Res(Zero(t), Ok)
  {
  }

  /** The kinds the decoder refuses, each with the message it gives. */
  function Refusal(t: GoType): Option<string> {
    match t
    case Invalid => Some("invalid variable kind")
    case Uintptr => Some("uintptr not supported")
    case Complex64 => Some("complex not supported")
    case Complex128 => Some("complex not supported")
    case Chan => Some("chan not supported")
    case Func => Some("func not supported")
    case Interface => Some("interface not supported")
    case Ptr(_) => Some("pointer not supported")
    case UnsafePointer => Some("unsafe pointer not supported")
    case _ => None
  }

  /** A refused kind fails with its own message, prefixed with the path,
      and leaves the destination as it was. */
  lemma UnsupportedKinds(t: GoType, dst: GoVal, node: JsNode, path: seq<string>, maxDepth: int)
    requires HasType(dst, t) && |path| <= maxDepth && !IsNullish(node)
    requires Refusal(t).Some?
    ensures ReadValue(t, dst, node, path, maxDepth) == Res(dst, Err(Fail(Refusal(t).value, path)))
  {
    match t
    case Invalid =>
    case Uintptr =>
    case Complex64 =>
    case Complex128 =>
    case Chan =>
    case Func =>
    case Interface =>
    case Ptr(_) =>
    case UnsafePointer =>
  }

  /** A Go array is skipped without error: the destination keeps its value. */
  lemma ArraysSkipped(t: GoType, dst: GoVal, node: JsNode, path: seq<string>, maxDepth: int)
    requires HasType(dst, t) && |path| <= maxDepth && !IsNullish(node)
    requires t.ArrayOf?
    ensures ReadValue(t, dst, node, path, maxDepth) == Res(dst, Ok)
  {
  }

  /** A map is read only from an object; otherwise the map's message, with
      the path, and the destination as it was. */
  lemma MapNotAnObject(t: GoType, dst: GoVal, node: JsNode, path: seq<string>, maxDepth: int)
    requires HasType(dst, t) && |path| <= maxDepth && !IsNullish(node)
    requires t.MapOf? && kObject !in node.kinds
    ensures ReadValue(t, dst, node, path, maxDepth)
            == Res(dst, Err(Fail("value to be read into a map is not an object", path)))
  {
  }

  /** Map keys must have kind string; otherwise the key message, with the
      path, and the destination as it was. */
  lemma MapKeyNotString(t: GoType, dst: GoVal, node: JsNode, path: seq<string>, maxDepth: int)
    requires HasType(dst, t) && |path| <= maxDepth && !IsNullish(node)
    requires t.MapOf? && kObject in node.kinds && !Underlying(t.key).StringKind?
    ensures ReadValue(t, dst, node, path, maxDepth)
            == Res(dst, Err(Fail("only string type keys are supported for maps", path)))
  {
  }

  /** A slice is read only from an array or an object; otherwise the slice
      message, with the path, and the destination as it was. */
  lemma SliceNotAnArray(t: GoType, dst: GoVal, node: JsNode, path: seq<string>, maxDepth: int)
    requires HasType(dst, t) && |path| <= maxDepth && !IsNullish(node)
    requires t.SliceOf? && kArray !in node.kinds && kObject !in node.kinds
    ensures ReadValue(t, dst, node, path, maxDepth)
            == Res(dst, Err(Fail("value to be read into a slice is not an array or object", path)))
  {
  }

  /** A struct is read only from an object; otherwise the same message as
      for a map, with the path, and the destination as it was. */
  lemma StructNotAnObject(t: GoType, dst: GoVal, node: JsNode, path: seq<string>, maxDepth: int)
    requires HasType(dst, t) && |path| <= maxDepth && !IsNullish(node)
    requires t.StructOf? && kObject !in node.kinds
    ensures ReadValue(t, dst, node, path, maxDepth)
            == Res(dst, Err(Fail("value to be read into a map is not an object", path)))
  {
  }

  /** The element loop succeeds exactly when every remaining element
      decodes. */
  lemma {:induction false} ReadElemsStatus(t: GoType, node: JsNode, length: nat, i: nat, acc: seq<GoVal>,
                                           path: seq<string>, maxDepth: int)
    requires t.SliceOf? && i <= length
    requires forall j | 0 <= j < |acc| :: HasType(acc[j], t.elem)
    ensures ReadElems(t, node, length, i, acc, path, maxDepth).status.Ok?
            <==> forall j | i <= j < length :: ReadElem(t, node, j, path, maxDepth).status.Ok?
    decreases length - i
  {
    if i < length {
      var elem := ReadElem(t, node, i, path, maxDepth);
      ReadElemsStep(t, node, length, i, acc, path, maxDepth);
      AllElemsFrom(t, node, length, i, path, maxDepth);
      if elem.status.Ok? {
        ReadElemsStatus(t, node, length, i + 1, acc + [elem.dst], path, maxDepth);
      }
    }
  }

  /** One turn of the element loop: a failing element stops it with that
      element's status, a decoded one is appended and the loop goes on. */
  lemma ReadElemsStep(t: GoType, node: JsNode, length: nat, i: nat, acc: seq<GoVal>,
                      path: seq<string>, maxDepth: int)
    requires t.SliceOf? && i < length
    requires forall j | 0 <= j < |acc| :: HasType(acc[j], t.elem)
    ensures var elem := ReadElem(t, node, i, path, maxDepth);
            && (!elem.status.Ok? ==> ReadElems(t, node, length, i, acc, path, maxDepth) == Res(VSlice(acc), elem.status))
            && (elem.status.Ok? ==>
                  && (forall j | 0 <= j < |acc + [elem.dst]| :: HasType((acc + [elem.dst])[j], t.elem))
                  && ReadElems(t, node, length, i, acc, path, maxDepth)
                     == ReadElems(t, node, length, i + 1, acc + [elem.dst], path, maxDepth))
  {
  }

  /** Every element from `i` on decodes iff element `i` does and every one
      after it does. */
  lemma AllElemsFrom(t: GoType, node: JsNode, length: nat, i: nat, path: seq<string>, maxDepth: int)
    requires t.SliceOf? && i < length
    ensures (forall j | i <= j < length :: ReadElem(t, node, j, path, maxDepth).status.Ok?)
            <==> ReadElem(t, node, i, path, maxDepth).status.Ok?
                 && forall j | i + 1 <= j < length :: ReadElem(t, node, j, path, maxDepth).status.Ok?
  {
  }

  /** When the element loop succeeds, the result extends the elements read
      so far to `length`, element `j` being what index `j` decodes to. */
  lemma {:induction false} ReadElemsContents(t: GoType, node: JsNode, length: nat, i: nat, acc: seq<GoVal>,
                                             path: seq<string>, maxDepth: int)
    requires t.SliceOf? && i <= length && |acc| == i
    requires forall j | 0 <= j < |acc| :: HasType(acc[j], t.elem)
    ensures var r := ReadElems(t, node, length, i, acc, path, maxDepth);
            r.status.Ok? ==>
              && |r.dst.elems| == length
              && r.dst.elems[..i] == acc
              && forall j | i <= j < length :: ReadElem(t, node, j, path, maxDepth).dst == r.dst.elems[j]
    decreases length - i
  {
    if i < length {
      var elem := ReadElem(t, node, i, path, maxDepth);
      if elem.status.Ok? {
        var acc' := acc + [elem.dst];
        ReadElemsContents(t, node, length, i + 1, acc', path, maxDepth);
        var r := ReadElems(t, node, length, i + 1, acc', path, maxDepth);
        if r.status.Ok? {
          assert r.dst.elems[..i] == r.dst.elems[..i + 1][..i];
        }
      }
    }
  }

  /** A slice decodes when the value is an array or object whose `length`
      reads as a non-negative number and every element decodes; the result
      has exactly that many elements, element `j` decoded from index `j`. */
  lemma SliceDecoding(t: GoType, dst: GoVal, node: JsNode, path: seq<string>, maxDepth: int)
    requires t.SliceOf? && HasType(dst, t) && |path| <= maxDepth && !IsNullish(node)
    ensures var r := ReadValue(t, dst, node, path, maxDepth);
            r.status.Ok? <==>
              && (kArray in node.kinds || kObject in node.kinds)
              && Get(node, "length").Got? && Get(node, "length").value.int64 >= 0
              && forall j | 0 <= j < Get(node, "length").value.int64 :: ReadElem(t, node, j, path, maxDepth).status.Ok?
    ensures var r := ReadValue(t, dst, node, path, maxDepth);
            r.status.Ok? ==>
              && r.dst.VSlice?
              && |r.dst.elems| == Get(node, "length").value.int64
              && forall j | 0 <= j < |r.dst.elems| :: ReadElem(t, node, j, path, maxDepth).dst == r.dst.elems[j]
  {
    if (kArray in node.kinds || kObject in node.kinds) && Get(node, "length").Got? && Get(node, "length").value.int64 >= 0 {
      ReadElemsStatus(t, node, Get(node, "length").value.int64, 0, [], path, maxDepth);
      ReadElemsContents(t, node, Get(node, "length").value.int64, 0, [], path, maxDepth);
    }
  }

  /** The key loop succeeds exactly when every remaining key decodes and,
      if there is one, the key type is plain `string`. */
  lemma {:induction false} ReadEntriesStatus(t: GoType, node: JsNode, keys: seq<string>, i: nat, acc: map<string, GoVal>,
                                             path: seq<string>, maxDepth: int)
    requires t.MapOf? && i <= |keys|
    requires forall k | k in acc :: HasType(acc[k], t.elem)
    ensures ReadEntries(t, node, keys, i, acc, path, maxDepth).status.Ok? <==>
              && (i < |keys| ==> !t.key.Defined?)
              && forall j | i <= j < |keys| :: ReadEntry(t, node, keys[j], path, maxDepth).status.Ok?
    decreases |keys| - i
  {
    if i < |keys| {
      var entry := ReadEntry(t, node, keys[i], path, maxDepth);
      if entry.status.Ok? && !t.key.Defined? {
        var acc' := acc[keys[i] := entry.dst];
        ReadEntriesStatus(t, node, keys, i + 1, acc', path, maxDepth);
        assert ReadEntries(t, node, keys, i, acc, path, maxDepth)
            == ReadEntries(t, node, keys, i + 1, acc', path, maxDepth);
        assert (forall j | i <= j < |keys| :: ReadEntry(t, node, keys[j], path, maxDepth).status.Ok?)
           <==> (forall j | i + 1 <= j < |keys| :: ReadEntry(t, node, keys[j], path, maxDepth).status.Ok?);
      } else if !entry.status.Ok? {
        assert ReadEntries(t, node, keys, i, acc, path, maxDepth) == Res(VMap(acc), entry.status);
        assert i <= i < |keys| && !ReadEntry(t, node, keys[i], path, maxDepth).status.Ok?;
      } else {
        assert ReadEntries(t, node, keys, i, acc, path, maxDepth) == Res(VMap(acc), Panic);
      }
    }
  }

  /** When the key loop succeeds, the result maps every key read so far or
      still listed: each listed key to what its property decodes to, every
      other key to what it was mapped to before. */
  lemma {:induction false} ReadEntriesContents(t: GoType, node: JsNode, keys: seq<string>, i: nat, acc: map<string, GoVal>,
                                               path: seq<string>, maxDepth: int)
    requires t.MapOf? && i <= |keys|
    requires forall k | k in acc :: HasType(acc[k], t.elem)
    ensures var r := ReadEntries(t, node, keys, i, acc, path, maxDepth);
            r.status.Ok? ==>
              && (forall k :: k in r.dst.entries <==> k in acc || k in keys[i..])
              && (forall j | i <= j < |keys| :: r.dst.entries[keys[j]] == ReadEntry(t, node, keys[j], path, maxDepth).dst)
              && (forall k | k in acc && k !in keys[i..] :: r.dst.entries[k] == acc[k])
    decreases |keys| - i
  {
    if i < |keys| {
      var entry := ReadEntry(t, node, keys[i], path, maxDepth);
      if entry.status.Ok? && !t.key.Defined? {
        var acc' := acc[keys[i] := entry.dst];
        ReadEntriesContents(t, node, keys, i + 1, acc', path, maxDepth);
        assert ReadEntries(t, node, keys, i, acc, path, maxDepth)
            == ReadEntries(t, node, keys, i + 1, acc', path, maxDepth);
        assert keys[i..] == [keys[i]] + keys[i + 1..];
      }
    }
  }

  /** Outside the depth and nullish checks, reading into a map is the map
      case: object check, key-kind check, key list, then the key loop from
      an empty map, whose result is stored only when it succeeds. */
  lemma MapCase(t: GoType, dst: GoVal, node: JsNode, path: seq<string>, maxDepth: int)
    requires t.MapOf? && HasType(dst, t) && |path| <= maxDepth && !IsNullish(node)
    requires kObject in node.kinds && Underlying(t.key).StringKind? && node.keys.Got?
    ensures var e := ReadEntries(t, node, node.keys.value, 0, map[], path, maxDepth);
            ReadValue(t, dst, node, path, maxDepth) == if e.status.Ok? then e else Res(dst, e.status)
  {
  }

  /** A map decodes when the value is an object, the key type has kind
      string, the key list is available and every key decodes (with a plain
      `string` key type when there is a key). */
  lemma MapDecodingStatus(t: GoType, dst: GoVal, node: JsNode, path: seq<string>, maxDepth: int)
    requires t.MapOf? && HasType(dst, t) && |path| <= maxDepth && !IsNullish(node)
    ensures ReadValue(t, dst, node, path, maxDepth).status.Ok? <==>
              && kObject in node.kinds
              && Underlying(t.key).StringKind?
              && node.keys.Got?
              && (|node.keys.value| > 0 ==> !t.key.Defined?)
              && forall j | 0 <= j < |node.keys.value| :: ReadEntry(t, node, node.keys.value[j], path, maxDepth).status.Ok?
  {
    if kObject in node.kinds && Underlying(t.key).StringKind? && node.keys.Got? {
      MapCase(t, dst, node, path, maxDepth);
      ReadEntriesStatus(t, node, node.keys.value, 0, map[], path, maxDepth);
    }
  }

  /** A decoded map holds exactly the listed keys, each bound to what its
      property decodes to. */
  lemma MapDecodingContents(t: GoType, dst: GoVal, node: JsNode, path: seq<string>, maxDepth: int)
    requires t.MapOf? && HasType(dst, t) && |path| <= maxDepth && !IsNullish(node)
    ensures var r := ReadValue(t, dst, node, path, maxDepth);
            r.status.Ok? ==>
              && node.keys.Got?
              && r.dst.VMap?
              && (forall k :: k in r.dst.entries <==> k in node.keys.value)
              && forall k | k in r.dst.entries :: r.dst.entries[k] == ReadEntry(t, node, k, path, maxDepth).dst
  {
    MapDecodingStatus(t, dst, node, path, maxDepth);
    if kObject in node.kinds && Underlying(t.key).StringKind? && node.keys.Got? {
      var keys := node.keys.value;
      var e := ReadEntries(t, node, keys, 0, map[], path, maxDepth);
      MapCase(t, dst, node, path, maxDepth);
      ReadEntriesContents(t, node, keys, 0, map[], path, maxDepth);
      assert keys[0..] == keys;
      if e.status.Ok? {
        forall k | k in e.dst.entries ensures e.dst.entries[k] == ReadEntry(t, node, k, path, maxDepth).dst {
          assert k in keys;
          var j :| 0 <= j < |keys| && keys[j] == k;
        }
      }
    }
  }

  /** The field loop succeeds exactly when every remaining field decodes;
      then each remaining field holds what decoding it from its value before
      the loop gives, and the fields before `i` are untouched. */
  lemma {:induction false} ReadFieldsOk(t: GoType, vals: seq<GoVal>, node: JsNode, i: nat, path: seq<string>, maxDepth: int)
    requires t.StructOf? && i <= |t.fields| && HasType(VStruct(vals), t)
    ensures var r := ReadFields(t, vals, node, i, path, maxDepth);
            r.status.Ok? <==> forall j | i <= j < |t.fields| :: ReadField(t, vals[j], node, j, path, maxDepth).status.Ok?
    ensures var r := ReadFields(t, vals, node, i, path, maxDepth);
            && r.dst.VStruct? && |r.dst.fields| == |vals|
            && (forall j | 0 <= j < i :: r.dst.fields[j] == vals[j])
            && (r.status.Ok? ==>
                  forall j | i <= j < |t.fields| :: r.dst.fields[j] == ReadField(t, vals[j], node, j, path, maxDepth).dst)
    decreases |t.fields| - i
  {
    if i < |t.fields| {
      var field := ReadField(t, vals[i], node, i, path, maxDepth);
      var vals' := vals[i := field.dst];
      assert HasType(VStruct(vals'), t);
      if field.status.Ok? {
        ReadFieldsOk(t, vals', node, i + 1, path, maxDepth);
      }
    }
  }

  /** A struct decodes when the value is an object and every field
      decodes; each field is then what decoding it alone gives. */
  lemma StructDecoding(t: GoType, dst: GoVal, node: JsNode, path: seq<string>, maxDepth: int)
    requires t.StructOf? && HasType(dst, t) && |path| <= maxDepth && !IsNullish(node)
    ensures var r := ReadValue(t, dst, node, path, maxDepth);
            r.status.Ok? <==>
              && kObject in node.kinds
              && forall j | 0 <= j < |t.fields| :: ReadField(t, dst.fields[j], node, j, path, maxDepth).status.Ok?
    ensures var r := ReadValue(t, dst, node, path, maxDepth);
            r.status.Ok? ==>
              forall j | 0 <= j < |t.fields| :: r.dst.fields[j] == ReadField(t, dst.fields[j], node, j, path, maxDepth).dst
  {
    if kObject in node.kinds {
      ReadFieldsOk(t, dst.fields, node, 0, path, maxDepth);
    }
  }

  /** An embedded field is read from the struct's own value at the same
      path; any other field from the property its JSON name selects, with
      its Go name (not the JSON name) appended to the path. */
  lemma FieldSources(t: GoType, v: GoVal, node: JsNode, i: nat, path: seq<string>, maxDepth: int)
    requires t.StructOf? && i < |t.fields| && HasType(v, t.fields[i].typ) && t.fields[i].exported
    ensures var f := t.fields[i];
            f.anonymous ==> ReadField(t, v, node, i, path, maxDepth) == ReadValue(f.typ, v, node, path, maxDepth)
    ensures var f := t.fields[i];
            !f.anonymous && Get(node, JsonName(f)).Got? ==>
              ReadField(t, v, node, i, path, maxDepth)
              == ReadValue(f.typ, v, Get(node, JsonName(f)).value, path + [f.name], maxDepth)
  {
  }

  /** `ReadInto` with a pointer and a non-negative bound decodes at the
      top level, where the depth bound cannot yet be exceeded. */
  lemma ReadAtTopLevel(target: Target, node: JsNode, maxDepth: int)
    requires HasType(target.v, target.t) && target.pointer && maxDepth >= 0
    ensures Read(target, node, maxDepth) == ReadValue(target.t, target.v, node, [], maxDepth)
    ensures IsNullish(node) ==> Read(target, node, maxDepth) == Res(Zero(target.t), Ok)
  {
  }
}

=== FILE: text.dfy ===
/** Text helpers the bridge relies on: decimal rendering of `int`s as a
    `std::stringstream` prints them, runs of one character, Go's
    `strings.Join`, and the C-string view of a buffer that may hold a NUL. */
module Text {

  /** The characters '0' .. '9'. */
  predicate IsDigit(c: char) {
    '0' <= c <= '9'
  }

  predicate AllDigits(s: string) {
    forall i | 0 <= i < |s| :: IsDigit(s[i])
  }

  /** The digit character for `d`. */
  function DigitChar(d: nat): (c: char)
    requires d < 10
    ensures IsDigit(c)
    ensures (c as int) - ('0' as int) == d
  {
    ('0' as int + d) as char
  }

  /** The decimal digits of `n`, most significant first, without leading
      zeros (zero itself is "0"). */
  function NatToString(n: nat): (r: string)
    ensures |r| >= 1
  {
    if n < 10 then [DigitChar(n)] else NatToString(n / 10) + [DigitChar(n % 10)]
  }

  /** The rendering uses digits only, and has a leading zero only for zero
      itself. */
  lemma {:induction false} NatToStringDigits(n: nat)
    ensures AllDigits(NatToString(n))
    ensures |NatToString(n)| > 1 ==> NatToString(n)[0] != '0'
    ensures n < 10 <==> |NatToString(n)| == 1
  {
    if n >= 10 {
      NatToStringDigits(n / 10);
    }
  }

  /** The value of a string of decimal digits, read most significant first
      (each character counts for its distance from '0'). */
  function DigitsValue(s: string): int {
    if |s| == 0 then 0
    else DigitsValue(s[..|s| - 1]) * 10 + ((s[|s| - 1] as int) - ('0' as int))
  }

  /** Reading back the digits of `n` gives `n`. */
  lemma {:induction false} NatToStringRoundTrip(n: nat)
    ensures DigitsValue(NatToString(n)) == n
  {
    if n >= 10 {
      NatToStringRoundTrip(n / 10);
      var r := NatToString(n);
      assert r[..|r| - 1] == NatToString(n / 10);
    }
  }

  /** How `operator<<` prints an `int`: a '-' sign for negative values, then
      the decimal digits of the magnitude. */
  function IntToString(i: int): (r: string)
    ensures |r| >= 1
  {
    if i < 0 then "-" + NatToString(-i) else NatToString(i)
  }

  /** A '-' leads exactly the negative values; the rest is digits. */
  lemma IntToStringShape(i: int)
    ensures i < 0 <==> IntToString(i)[0] == '-'
    ensures i >= 0 ==> AllDigits(IntToString(i))
    ensures i < 0 ==> AllDigits(IntToString(i)[1..])
  {
    if i < 0 {
      NatToStringDigits(-i);
      assert IntToString(i)[1..] == NatToString(-i);
    } else {
      NatToStringDigits(i);
    }
  }

  /** The value of a rendered integer: an optional '-' and decimal digits. */
  function ParseInt(s: string): int {
    if |s| > 0 && s[0] == '-' then -DigitsValue(s[1..]) else DigitsValue(s)
  }

  /** Printing an integer loses nothing: parsing the text gives it back, so
      different integers print differently. */
  lemma IntToStringRoundTrip(i: int)
    ensures ParseInt(IntToString(i)) == i
  {
    if i < 0 {
      var digits := NatToString(-i);
      assert IntToString(i) == "-" + digits;
      assert IntToString(i)[1..] == digits;
      NatToStringRoundTrip(-i);
    } else {
      NatToStringDigits(i);
      NatToStringRoundTrip(i);
    }
  }

  /** `n` copies of `c`. */
  function Repeat(c: char, n: nat): (r: string)
    ensures |r| == n
    ensures forall i | 0 <= i < |r| :: r[i] == c
  {
    if n == 0 then [] else Repeat(c, n - 1) + [c]
  }

  /** Go's `strings.Join`: the parts with `sep` between neighbours. */
  function Join(parts: seq<string>, sep: string): (r: string)
    ensures |parts| == 0 ==> r == ""
    ensures |parts| == 1 ==> r == parts[0]
  {
    if |parts| == 0 then ""
    else if |parts| == 1 then parts[0]
    else Join(parts[..|parts| - 1], sep) + sep + parts[|parts| - 1]
  }

  /** Joining one more part appends the separator and the part. */
  lemma JoinSnoc(parts: seq<string>, sep: string, last: string)
    requires |parts| >= 1
    ensures Join(parts + [last], sep) == Join(parts, sep) + sep + last
  {
    assert (parts + [last])[..|parts|] == parts;
  }

  /** The length of a joined path: every part and one separator between each
      pair of neighbours. */
  function TotalLength(parts: seq<string>): nat {
    if |parts| == 0 then 0 else TotalLength(parts[..|parts| - 1]) + |parts[|parts| - 1]|
  }

  lemma {:induction false} JoinLength(parts: seq<string>, sep: string)
    requires |parts| >= 1
    ensures |Join(parts, sep)| == TotalLength(parts) + (|parts| - 1) * |sep|
  {
    if |parts| > 1 {
      JoinLength(parts[..|parts| - 1], sep);
    }
  }

  /** The text a `char*` designates when the buffer `s` is read as a C string:
      everything before the first NUL, or all of `s` when it holds none. */
  function CString(s: string): (r: string)
    ensures |r| <= |s|
  {
    if |s| == 0 || s[0] == '\0' then "" else [s[0]] + CString(s[1..])
  }

  /** The C string is the longest NUL-free prefix of the buffer: a prefix,
      free of NUL, and followed by a NUL unless it is the whole buffer. */
  lemma {:induction false} CStringPrefix(s: string)
    ensures CString(s) == s[..|CString(s)|]
    ensures '\0' !in CString(s)
    ensures |CString(s)| == |s| || s[|CString(s)|] == '\0'
  {
    if |s| > 0 && s[0] != '\0' {
      CStringPrefix(s[1..]);
    }
  }

  /** A buffer without a NUL is read in full. */
  lemma CStringNoNul(s: string)
    requires '\0' !in s
    ensures CString(s) == s
  {
    CStringPrefix(s);
  }

  /** `str`: the text of a value after its conversion to UTF-8, as a
      `std::string`. An empty conversion (which is also what a failed
      conversion yields) gives "", and the conversion is cut at its first NUL
      because it is copied through a `char*`. */
  function Str(converted: string): (r: string)
    ensures |r| <= |converted|
  {
    if |converted| == 0 then "" else CString(converted)
  }

  /** `str` yields the longest NUL-free prefix of the conversion. */
  lemma StrPrefix(converted: string)
    ensures Str(converted) == converted[..|Str(converted)|]
    ensures '\0' !in Str(converted)
    ensures |Str(converted)| == |converted| || converted[|Str(converted)|] == '\0'
  {
    CStringPrefix(converted);
  }
}

=== FILE: wrappers.dfy ===
/** Small optional-value datatype shared by the bridge model. */
module Wrappers {

  /** Either nothing or a value; stands for C++ `Maybe<T>`/`MaybeLocal<T>`
      and for nullable pointers. */
  datatype Option<+T> = None | Some(value: T) {

    /** The value, or `default` when there is none. */
    function GetOr(default: T): T {
      match this
      case Some(v) => v
      case None => default
    }
  }
}
